=== FILE: README.md ===
# AstroLingua core, modelled in Dafny

AstroLingua is a browser arcade game in which a ship shoots asteroids labelled with
Chinese words. The player must destroy the one asteroid whose word translates the
English prompt. The other asteroids in the wave are decoys.

This project models the game's simulation core as pure Dafny functions over immutable
records, and proves properties of that model:

- the helpers `wrap`, `choose` and `rand`;
- the CSV vocabulary parser `parseCSV`;
- wave generation, `spawnAsteroidsForLevel`;
- the per-frame `update`, without its HUD writes;
- kill scoring and the accuracy percentage;
- `endGame`;
- the lifecycle handlers: Start, Pause, Reset and the vocabulary upload.

Modules, one per file:

| file | module | models |
|---|---|---|
| `wrappers.dfy` | `Wrappers` | `Option` |
| `seqs.dfy` | `Seqs` | counting and filtering sequences, the shapes `Array.prototype.filter` takes |
| `utilities.dfy` | `Utilities` | `Math.random`, `choose`, `rand`, JavaScript `%` and `wrap` |
| `vocabulary.dfy` | `Vocabulary` | vocabulary pairs, the default list, `trim`, `split`, `parseCSV` |
| `entities.dfy` | `Entities` | `CONFIG`, the ship, bullets, asteroids and the game state |
| `waves.dfy` | `Waves` | `spawnAsteroidsForLevel` |
| `scoring.dfy` | `Scoring` | the score of a kill and the accuracy formula |
| `collisions.dfy` | `Collisions` | the bullet × asteroid pass |
| `step.dfy` | `Step` | `update` and `endGame` |
| `session.dfy` | `Session` | `resetState`, the buttons, the upload, and runs of events |

Modelling choices:

- **Randomness.** Each `Math.random()` value is an integer `k` in `[0, 2^53)`, standing
  for `k / 2^53`. `(Math.random() * len) | 0` becomes `(k * len) / 2^53`. Every random
  value an operation uses is an explicit argument.
- **Coordinates are integers.** Positions, velocities and sizes are integers.
  `dist(...) < r` is decided exactly as `dx² + dy² < r²`.
- **Floating-point kinematics come from outside.** The ship's heading and velocity
  after rotation, thrust and friction arrive in the `Frame` (`Steering`), and so do the
  muzzle offset and the bullet velocity (`Muzzle`). So do each spawned asteroid's
  velocity, angle and spin (`SlotDraw`). The heading is an integer in milliradians.
- **Wave size.** `Math.max(3, Math.round(5 + (level - 1) * 1.5))` is computed as
  `max(3, (3 * level + 8) / 2)`. It is proved to be the real value rounded half up.
- **Accuracy.** The percentage is `(200 * hits + total) / (2 * total)`. It is proved to
  be within one half of the real `100 * hits / total`.
- **Shot cooldown.** `t - lastShotTime > 180 / (1 + level * 0.05)` is decided as
  `elapsed * (20 + level) > 3600`. This is proved equivalent to the real comparison.
- **The vocabulary is never empty.** Its type is the non-empty sequences. The only
  writer, the upload handler, replaces it only with a non-empty list. So `choose`
  never sees an empty pool.

Four behaviours of the code that are easy to overlook, kept as written:

- `wrap(x, max)` is `(x + max) % max` with JavaScript's `%`. The result is negative
  when `x < -max`, e.g. `wrap(-1000, 960) == -40`.
- A new asteroid is placed 40 units outside the field. Its first move wraps it to the
  opposite edge at once: a top spawn reappears near the bottom.
- A bullet that hits is given `life = 0` but is not removed in that frame. The life
  filter runs before the collision pass. A bullet that has hit keeps testing the
  remaining asteroids, so one bullet can destroy several overlapping asteroids.
- An upload during a game replaces the vocabulary at once. The current prompt stays,
  even if it is not in the new list.

## Model

| member | source | states |
|---|---|---|
| `Utilities.PickIndex` | main.js:17 | the truncated product `Math.random() * len` is an index below `len`, namely the bucket `r * len` falls into |
| `Utilities.EverySlotReachable` | main.js:17 | every index of a non-empty array is drawn by some random value |
| `Utilities.Choose` | main.js:17 | `choose` returns an element of the array exactly when the array is non-empty |
| `Utilities.RandRange` | main.js:16 | `rand(a, b)` lies in `[a, b)` |
| `Utilities.JsRem` | main.js:19 | JavaScript's `%` takes the sign of the dividend and its magnitude is below the divisor |
| `Utilities.Wrap` | main.js:19 | `wrap` lands in `[0, max)` when `x >= -max`, and in `(-max, 0]` otherwise; it moves `x` by a multiple of `max` |
| `Utilities.WrapIsModuloIff` | main.js:19 | `wrap` equals true modulo exactly when `x >= -max` or `x` is a multiple of `max` |
| `Utilities.WrapFarBelow` | main.js:19 | `wrap(-1000, 960)` is `-40`, outside the field |
| `Vocabulary.Trim` | main.js:45 | `trim` gives a string with no whitespace at either end, and leaves such a string alone |
| `Vocabulary.TrimCuts` | main.js:45 | `trim` only cuts whitespace off the two ends: the result is an infix whose cut-off prefix and suffix are all whitespace |
| `Vocabulary.TrimKeepsOut` | main.js:48 | trimming introduces no character |
| `Vocabulary.Split` | main.js:48 | `split(sep)` gives at least one part and no part contains `sep` |
| `Vocabulary.JoinSplit` | main.js:48 | joining the parts of `split(sep)` with `sep` gives the input back |
| `Vocabulary.SplitJoin` | main.js:48 | splitting joined separator-free parts gives the parts back |
| `Vocabulary.SplitAppend` | main.js:48 | splitting at a separator distributes over concatenation |
| `Vocabulary.TrimPadded` | main.js:45 | trimming a padded non-blank trimmed string gives it back, whatever whitespace pads it |
| `Vocabulary.TrimBlank` | main.js:45 | a string trims to nothing exactly when it is all whitespace |
| `Vocabulary.Lines` | main.js:45 | `split(/\r?\n/)` gives one line per line feed plus one, and no line holds a line feed |
| `Vocabulary.LinesPieces` | main.js:45 | each line is the piece between two line feeds, less the one carriage return just before the line feed; the last line is the last piece |
| `Vocabulary.LinesOfCrlf` | main.js:45 | the lines of a CRLF-ended text are the original lines and one empty line after the last line feed |
| `Vocabulary.CleanLines` | main.js:45 | `.map(l => l.trim()).filter(Boolean)` gives one line per line with content, each trimmed and non-empty |
| `Vocabulary.CleanLinesKeep` | main.js:45 | every line with content has its trim among the clean lines |
| `Vocabulary.CleanLinesFrom` | main.js:45 | every clean line is the trim of some line |
| `Vocabulary.CleanLinesAppend` | main.js:45 | the clean-up distributes over concatenation, so lines keep their order |
| `Vocabulary.BlankLinesDropped` | main.js:45 | lines of whitespace are dropped |
| `Vocabulary.ParseLine` | main.js:48-49 | a line gives a pair exactly when its first two trimmed fields are both non-empty, and then the pair is those two fields; they hold no comma or line break |
| `Vocabulary.ParsePaddedLine` | main.js:48-49 | a valid pair padded with any whitespace around either word, with or without further fields, parses to that pair |
| `Vocabulary.ParseLines` | main.js:46-51 | the loop yields at most one pair per line, each well formed when no line holds a line feed, and every line's pair appears |
| `Vocabulary.ParseLinesFrom` | main.js:46-51 | every pair the loop yields is the pair of some line |
| `Vocabulary.ParseLinesAppend` | main.js:46-51 | the loop distributes over concatenation, so pairs come out in the order of their lines |
| `Vocabulary.ParseCSV` | main.js:43-52 | `parseCSV` yields at most one pair per non-blank line, each with non-empty trimmed fields free of commas and line breaks |
| `Vocabulary.ExtraFieldsIgnored` | main.js:48 | fields after the second do not change a line's pair |
| `Vocabulary.ParseRender` | main.js:43-52 | parsing the CSV text of well-formed pairs gives back exactly those pairs |
| `Vocabulary.CrlfParsesAsLines` | main.js:43-52 | a CRLF-ended file of clean lines parses as those lines do: the trailing empty line and the carriage returns change nothing |
| `Vocabulary.ParseCrlf` | main.js:43-52 | a CRLF file of well-formed pairs, ending in a line break, parses to exactly those pairs |
| `Vocabulary.ParseIsNormalForm` | main.js:43-52 | rendering the parser's output and parsing again changes nothing |
| `Entities.CentredShip` | main.js:119 | the reset ship is on the field and at rest |
| `Waves.WaveCount` | main.js:129 | the wave size is at least 3; above 3 it is `5 + (level - 1) * 1.5` rounded half up; it is 3 only when that value is below 3.5 |
| `Waves.WaveCountMonotone` | main.js:129 | higher levels never have smaller waves |
| `Waves.WaveCountExamples` | main.js:129 | levels 1, 2 and 3 have waves of 5, 7 and 8; a level far below 1 still has 3 |
| `Waves.SpawnPoint` | main.js:139-143 | each edge puts the asteroid at the padding outside that edge, at a random place along it |
| `Waves.AsteroidSize` | main.js:145 | a size is the real product of the draw `18 + 24 * Math.random()` and `1 + level * 0.05`, rounded down once; so it lies from the scaled minimum less under one to below the scaled maximum, and never below the unscaled minimum |
| `Waves.EverySizeReachable` | main.js:145 | every whole size in that range is drawn by some random value, as long as the range fits the random grid |
| `Waves.LevelOneSizes` | main.js:145 | at level 1 every size lies in `[18, 44]`, and 20, 41 and 44 all occur |
| `Waves.SpawnSlot` | main.js:134-151 | a slot's asteroid is alive and off the field; the correct one shows the prompt's translation; a decoy shows some word of the vocabulary |
| `Waves.CorrectSlot` | main.js:131 | the correct slot is an index of the wave |
| `Waves.Slots` | main.js:133-152 | the loop makes exactly the chosen slot correct, with the prompt's translation |
| `Waves.GenerateWave` | main.js:123-152 | the prompt comes from the vocabulary; the wave has `WaveCount(level)` live asteroids; exactly one is correct and shows the prompt's translation; every text is a word of the vocabulary |
| `Waves.Spawn` | main.js:123-127 | spawning replaces only the asteroids and the prompt, leaves an intact wave, and draws the prompt and every asteroid's word from the vocabulary |
| `Waves.SingleWordWave` | main.js:133-136 | with a one-word vocabulary every asteroid shows the prompt's word, yet exactly one counts as correct |
| `Scoring.ScoreKill` | main.js:219-226 | a correct kill counts a hit, sets `correctHit` and adds at least 100; a decoy kill counts a miss and takes off 50, or sets the score to zero when it is 50 or less |
| `Scoring.Docked` | main.js:224 | `m` decoy kills leave a non-negative score that is at most the old one |
| `Scoring.Accuracy` | main.js:259-260 | the accuracy is 0 before any kill, at most 100, and within one half of `100 * hits / total` |
| `Scoring.AccuracyExamples` | main.js:372-373 | 7 of 10 is 70%, none is 0%, 1 of 3 is 33%, 1 of 8 is 13% |
| `Collisions.Sweep` | main.js:214-228 | the inner loop kills exactly the live asteroids the bullet touches, reports whether it hit, and scores each kill once; with no correct kill the score is exactly the old one docked 50 per decoy, floored at zero |
| `Collisions.Collide` | main.js:213-229 | after all bullets, an asteroid is alive exactly when it was alive and no bullet touches it; a bullet's life is zeroed exactly when it destroys an asteroid no earlier bullet touched |
| `Collisions.Resolve` | main.js:211-230 | the survivors are exactly the live asteroids no bullet touches, in their order (`Survivors`); the hits and the misses grow by exactly the live correct asteroids and the live decoys some bullet touches (`Kills`); every removed asteroid is one hit or one miss; `correctHit` holds exactly when a live correct asteroid was struck; the score stays non-negative and, with no correct kill, is exactly the docked score; each bullet is spent exactly when it touches an asteroid still alive when it passes (`Spends`), and is otherwise left as it was; a bullet that reaches only asteroids already destroyed keeps flying |
| `Collisions.DecoyHitCosts` | main.js:213-229 | a bullet on a decoy beside an untouched correct asteroid removes only the decoy, counts one miss, takes 50 points off and is spent |
| `Collisions.SecondBulletFlies` | main.js:213-229 | when two bullets touch one live decoy, the first destroys it and is spent, the second finds it dead and keeps flying, and only one miss and one 50-point penalty are counted |
| `Collisions.TwoBulletsOneDecoy` | main.js:213-229 | for any two bullets touching one live decoy, only the first is spent, nothing survives, and exactly one miss and no hit are counted |
| `Collisions.CollisionExamples` | main.js:216 | a bullet 5 away from a size-18 asteroid hits it; one 100 away does not |
| `Collisions.OneBulletTwoKills` | main.js:213-230 | one bullet over two overlapping decoys destroys both and costs two misses |
| `Step.Drift` | main.js:183-187 | the ship moves by its velocity up to a multiple of the field size; it stays on the field unless the step is very negative; invulnerability counts down to 0 |
| `Step.ShotReadyIff` | main.js:190 | the integer cooldown test is exactly `elapsed > 180 / (1 + level * 0.05)` |
| `Step.CooldownShortens` | main.js:190 | a shot ready at one level is ready at every higher level, and needs a positive wait |
| `Step.ShotReadyBounds` | main.js:190 | waiting more than 180 ms always allows a shot; no wait never does |
| `Step.Flying` | main.js:189-202 | a frame that fires adds a bullet at the drifted ship's muzzle, still in flight after aging; a frame that does not fire only ages the bullets; every bullet is in flight |
| `Step.FlyingExact` | main.js:189-202 | the bullets after the frame are the old bullets aged, in order, followed by the aged new bullet when the frame fires |
| `Step.FlyingFrom` | main.js:189-202 | every bullet in flight is an aged old bullet or the new one |
| `Step.Fire` | main.js:191-193 | a new bullet starts at the muzzle with the muzzle velocity and a life of 70 |
| `Step.AgeBullet` | main.js:197-201 | a bullet moves by its velocity up to a multiple of the field size and loses one life |
| `Step.AgeBullets` | main.js:196-202 | the survivors are no more than the bullets, each an aged bullet with life left |
| `Step.AgeBulletsKeep` | main.js:196-202 | every bullet that had more than one life survives the aging |
| `Step.AgeBulletsAppend` | main.js:196-202 | aging distributes over concatenation, so the survivors keep their order |
| `Step.AgeBulletsOne` | main.js:196-202 | one bullet survives exactly when it had more than one life, and then as itself aged |
| `Step.FreshBulletFlies` | main.js:196-202 | a fired bullet is still in flight after `n` agings exactly when `n < 70` |
| `Step.DriftAsteroid` | main.js:205-209 | an asteroid moves by its velocity up to a multiple of the field size and turns by its spin; nothing else changes |
| `Step.DriftAsteroids` | main.js:204-209 | every asteroid takes one step, in order |
| `Step.TopSpawnAppearsAtBottom` | main.js:205-209 | an asteroid spawned above the top edge reappears at the bottom edge on its first move |
| `Step.FirstContact` | main.js:234-241 | the loop stops at the first asteroid that rams the ship, and finds none exactly when none does |
| `Step.Crash` | main.js:232-242 | a life is lost exactly when the ship is vulnerable and some asteroid rams it; at most one life per frame; the ship is then re-centred and invulnerable |
| `Step.Advance` | main.js:244-251 | a level-up raises the level by one, clears the bullets and spawns an intact wave of the new size |
| `Step.EndGame` | main.js:370-371 | game over stops the game and keeps the final state |
| `Step.Aftermath` | main.js:174-242 | the frame before the level-up check keeps the wave intact when no correct asteroid was struck, and sets `lastShotTime` to the frame's time exactly when it fires |
| `Step.Conclude` | main.js:244-256 | a correct kill levels up and clears the bullets; otherwise the level, the wave, the prompt and the bullets stay; the game keeps running exactly when lives remain |
| `Step.Update` | main.js:168-257 | nothing happens unless running and not paused; the level rises by one exactly when a live correct asteroid is struck; a life is lost exactly when a vulnerable ship is rammed by a survivor; the score stays non-negative, and without a correct kill it is the old score docked 50 per decoy, floored at zero; `lastShotTime` becomes the frame's time exactly when it fires; the wave stays intact; the game stops exactly when no life is left; `Step.FrameTally` ties the hits and misses to the asteroids struck and fixes the bullets left |
| `Step.FrameTally` | main.js:211-230 | a played frame adds one hit per live correct asteroid and one miss per live decoy a bullet strikes; without a correct kill the asteroids left are the survivors, the bullets left are those of the bullet pass, and the score is the old one docked 50 per struck decoy, floored at zero |
| `Step.CrashOnlyBySurvivor` | main.js:211-242 | only a live asteroid that no bullet struck in the same frame can cost a life |
| `Step.SurvivorRams` | main.js:230-235 | ramming by a survivor is ramming by a live asteroid no bullet touched |
| `Step.ShipStaysOnField` | main.js:185-186 | a ship on the field stays on it after a frame when its velocity is at least minus the field size |
| `Session.Boot` | main.js:89-105 | the page starts stopped, with the default vocabulary, and satisfies the invariant |
| `Session.ResetState` | main.js:107-120 | a reset stops the game, restores level 1, score 0 and three lives, keeps the vocabulary, and satisfies the invariant |
| `Session.ResetForgets` | main.js:107-120 | a reset forgets everything but the vocabulary |
| `Session.Start` | main.js:402-410 | Start gives a running, unpaused level-1 game with score 0, three lives, no hits or misses, no bullets, `lastShotTime` 0, a centred invulnerable ship, and a full intact wave whose prompt and asteroid words all come from the current vocabulary |
| `Session.TogglePause` | main.js:412-416 | Pause toggles only while the game runs and changes nothing else |
| `Session.PauseTwice` | main.js:412-416 | pausing twice restores the state |
| `Session.Reset` | main.js:418-425 | Reset stops and unpauses the game and returns it to level 1, score 0, three lives, no hits or misses, no bullets, no wave, no prompt, `lastShotTime` 0 and a centred invulnerable ship, keeping the vocabulary |
| `Session.LoadVocab` | main.js:431-437 | a non-empty list replaces the vocabulary; an empty one changes nothing |
| `Session.UploadCSV` | main.js:427-437 | an upload changes only the vocabulary: a text that parses to some pairs replaces it with exactly those pairs, and one that parses to none leaves the state as it was; the pairs are well formed, at most one per non-blank line |
| `Session.UploadRendered` | main.js:427-437 | uploading the CSV text of a non-empty list of well-formed pairs loads exactly that list |
| `Session.RunKeepsInv` | main.js:168-256 | any sequence of frames and button events keeps the invariant: non-negative score, lives in `[0, 3]` and positive while running, paused only while running, invulnerability in `[0, 120]`, an intact wave while running |
| `Session.SessionKeepsInv` | main.js:89-105 | every session from page load keeps the invariant |
| `Session.ProgressKept` | main.js:245-246 | without Start or Reset, the level, hits and misses never fall |
| `Session.PausedFreezes` | main.js:172 | a paused game ignores any number of frames |
| `Session.StartResets` | main.js:402-406 | Start from a reset state is the same as Start from any state |

## Left out

- Rendering, the overlay, the HUD writes and button enabling are left out. They are DOM output. Start is modelled as usable in any state, although the page disables its button during a game.
- `readVocabFile`'s JSON branch and the file read are left out, as I/O. The upload is modelled for CSV text.
- The frame clock (`now()`, `lastFrame`, `dt`) is left out. The time is a `Frame` input, and `dt` only scales the supplied kinematics.
- Step.ShotReadyIff: the clock is in whole milliseconds. `performance.now()` returns fractional milliseconds, and the equivalence is stated for whole-millisecond elapsed times.
- The trigonometry and floating-point kinematics are left out and arrive as inputs: rotation, thrust, friction, `angleToVector`, and the asteroids' aim, speed and spin. Coordinates are whole numbers, so fractional positions are not modelled.
- `Math.random` itself is left out. Its values are inputs.
- Scoring.ScoreKill: the correct-kill bonus is stated as at least 100 rather than exactly `100 + Math.round(5 * size)`, because sizes are whole numbers here and the source's size is fractional.
- Scoring.Accuracy: a share that lands exactly on a half is rounded up. Floating-point error in `hits / total * 100` can put the source's rounding one lower on such ties.
- Waves.AsteroidSize: the real size `rand(18, 42) * (1 + level * 0.05)` is rounded down once to a whole number, so the fractional part of a size is not modelled.

=== FILE: collisions.dfy ===
/**
 * The bullet × asteroid pass of `update`: every bullet is tested against every
 * asteroid that is still alive, in order. A hit marks the asteroid dead, spends the
 * bullet and scores; a spent bullet keeps testing the remaining asteroids in the same
 * pass, so one bullet can destroy several coinciding asteroids. Dead asteroids are
 * then filtered out.
 */
module Collisions {
  import opened Seqs
  import opened Entities
  import opened Scoring

  /** `dist(b.x, b.y, a.x, a.y) < a.size`. */
  predicate Touches(b: Bullet, a: Asteroid) {
    Within(b.x, b.y, a.x, a.y, a.size)
  }

  /** Some bullet of `bs` touches `a`. */
  predicate Struck(bs: seq<Bullet>, a: Asteroid) {
    exists i :: 0 <= i < |bs| && Touches(bs[i], a)
  }

  /**
   * Bullet `i` of `bs` destroys some asteroid: one that is alive in `rocks`, touched
   * by it, and touched by no bullet before it.
   */
  predicate Spends(bs: seq<Bullet>, rocks: seq<Asteroid>, i: int)
    requires 0 <= i < |bs|
  {
    exists j :: 0 <= j < |rocks| && rocks[j].alive && Touches(bs[i], rocks[j]) && !Struck(bs[..i], rocks[j])
  }

  /** `after` is `before` with some live asteroids marked dead, and nothing else changed. */
  predicate Descends(before: seq<Asteroid>, after: seq<Asteroid>) {
    && |before| == |after|
    && forall j :: 0 <= j < |before| ==>
         after[j] == before[j].(alive := after[j].alive) && (after[j].alive ==> before[j].alive)
  }

  /**
   * The tally went from `t` to `t'` by exactly the kills from `before` to `after`: one
   * hit per correct asteroid newly dead, one miss per decoy newly dead.
   */
  predicate Accounted(before: seq<Asteroid>, after: seq<Asteroid>, t: Tally, t': Tally) {
    var dh := Count(after, IsDeadCorrect) - Count(before, IsDeadCorrect);
    var dm := Count(after, IsDeadDecoy) - Count(before, IsDeadDecoy);
    && dh >= 0 && dm >= 0
    && t'.hits == t.hits + dh
    && t'.misses == t.misses + dm
    && (t'.correctHit <==> t.correctHit || dh > 0)
    && (t.score >= 0 ==> t'.score >= 0)
    && t'.score >= t.score + KillBase * dh - DecoyPenalty * dm
    && (dh == 0 && dm == 0 ==> t' == t)
    && (dh == 0 && t.score >= 0 ==> t'.score == Docked(t.score, dm))
  }

  lemma AccountedTrans(a0: seq<Asteroid>, a1: seq<Asteroid>, a2: seq<Asteroid>, t0: Tally, t1: Tally, t2: Tally)
    requires Accounted(a0, a1, t0, t1) && Accounted(a1, a2, t1, t2)
    ensures Accounted(a0, a2, t0, t2)
  {
    var dm1 := Count(a1, IsDeadDecoy) - Count(a0, IsDeadDecoy);
    var dm2 := Count(a2, IsDeadDecoy) - Count(a1, IsDeadDecoy);
    if t0.score >= 0 && t2.hits == t0.hits {
      DockedTwice(t0.score, dm1, dm2);
    }
  }

  /** What `Sweep` promises, as one predicate for the proof of its recursive step. */
  predicate SweepSpec(b: Bullet, rocks: seq<Asteroid>, t: Tally, r: (seq<Asteroid>, Tally, bool)) {
    && Descends(rocks, r.0)
    && (forall j :: 0 <= j < |rocks| ==> (r.0[j].alive <==> rocks[j].alive && !Touches(b, rocks[j])))
    && (r.2 <==> exists j :: 0 <= j < |rocks| && rocks[j].alive && Touches(b, rocks[j]))
    && Accounted(rocks, r.0, t, r.1)
  }

  /** The inner loop over the asteroids, for one bullet `b`. */
  function Sweep(b: Bullet, rocks: seq<Asteroid>, t: Tally): (r: (seq<Asteroid>, Tally, bool))
    ensures Descends(rocks, r.0)
    ensures forall j :: 0 <= j < |rocks| ==> (r.0[j].alive <==> rocks[j].alive && !Touches(b, rocks[j]))
    ensures r.2 <==> exists j :: 0 <= j < |rocks| && rocks[j].alive && Touches(b, rocks[j])
    ensures Accounted(rocks, r.0, t, r.1)
    decreases |rocks|
  {
    if |rocks| == 0 then ([], t, false)
    else
      var a := rocks[0];
      if a.alive && Touches(b, a) then
        var t1 := ScoreKill(t, a);
        var r := Sweep(b, rocks[1..], t1);
        SweepHit(b, rocks, t, t1, r);
        ([a.(alive := false)] + r.0, r.1, true)
      else
        var r := Sweep(b, rocks[1..], t);
        SweepPass(b, rocks, t, r);
        ([a] + r.0, r.1, r.2)
  }

  /** The first asteroid is alive and touched: it dies and is scored, then the sweep goes on. */
  lemma SweepHit(b: Bullet, rocks: seq<Asteroid>, t: Tally, t1: Tally, r: (seq<Asteroid>, Tally, bool))
    requires |rocks| > 0 && rocks[0].alive && Touches(b, rocks[0])
    requires t1 == ScoreKill(t, rocks[0])
    requires SweepSpec(b, rocks[1..], t1, r)
    ensures SweepSpec(b, rocks, t, ([rocks[0].(alive := false)] + r.0, r.1, true))
  {
    var a := rocks[0];
    SweepShape(b, rocks, a.(alive := false), r.0);
    assert rocks == [a] + rocks[1..];
    KillAccounted(a, rocks[1..], r.0, t, t1, r.1);
  }

  /** Killing a live first asteroid and then accounting for the rest accounts for all. */
  lemma KillAccounted(a: Asteroid, rest: seq<Asteroid>, after: seq<Asteroid>, t: Tally, t1: Tally, t2: Tally)
    requires a.alive
    requires t1 == ScoreKill(t, a)
    requires Accounted(rest, after, t1, t2)
    ensures Accounted([a] + rest, [a.(alive := false)] + after, t, t2)
  {
    var before := [a] + rest;
    var all := [a.(alive := false)] + after;
    assert before[1..] == rest && all[1..] == after;
    assert Count(all, IsDeadCorrect) == (if a.isCorrect then 1 else 0) + Count(after, IsDeadCorrect);
    assert Count(all, IsDeadDecoy) == (if a.isCorrect then 0 else 1) + Count(after, IsDeadDecoy);
    assert Count(before, IsDeadCorrect) == Count(rest, IsDeadCorrect);
    assert Count(before, IsDeadDecoy) == Count(rest, IsDeadDecoy);
    if !a.isCorrect && t.score >= 0 {
      assert t1.score == Docked(t.score, 1);
      DockedTwice(t.score, 1, Count(after, IsDeadDecoy) - Count(rest, IsDeadDecoy));
    }
  }

  /** The first asteroid is dead or not touched: it is left as it is. */
  lemma SweepPass(b: Bullet, rocks: seq<Asteroid>, t: Tally, r: (seq<Asteroid>, Tally, bool))
    requires |rocks| > 0 && !(rocks[0].alive && Touches(b, rocks[0]))
    requires SweepSpec(b, rocks[1..], t, r)
    ensures SweepSpec(b, rocks, t, ([rocks[0]] + r.0, r.1, r.2))
  {
    var a := rocks[0];
    var after := [a] + r.0;
    SweepShape(b, rocks, a, r.0);
    assert after[1..] == r.0;
    assert Count(after, IsDeadCorrect) == (if IsDeadCorrect(a) then 1 else 0) + Count(r.0, IsDeadCorrect);
    assert Count(after, IsDeadDecoy) == (if IsDeadDecoy(a) then 1 else 0) + Count(r.0, IsDeadDecoy);
  }

  /** Putting the first asteroid's outcome in front of the rest's sweep gives the sweep of all. */
  lemma SweepShape(b: Bullet, rocks: seq<Asteroid>, h: Asteroid, rest: seq<Asteroid>)
    requires |rocks| > 0
    requires h == rocks[0].(alive := h.alive)
    requires h.alive <==> rocks[0].alive && !Touches(b, rocks[0])
    requires Descends(rocks[1..], rest)
    requires forall j :: 0 <= j < |rocks| - 1 ==> (rest[j].alive <==> rocks[1..][j].alive && !Touches(b, rocks[1..][j]))
    ensures Descends(rocks, [h] + rest)
    ensures forall j :: 0 <= j < |rocks| ==> (([h] + rest)[j].alive <==> rocks[j].alive && !Touches(b, rocks[j]))
    ensures (exists j :: 0 <= j < |rocks| && rocks[j].alive && Touches(b, rocks[j])) <==>
      (rocks[0].alive && Touches(b, rocks[0])) || exists j :: 0 <= j < |rocks| - 1 && rocks[1..][j].alive && Touches(b, rocks[1..][j])
  {
    assert forall j :: 1 <= j < |rocks| ==> rocks[j] == rocks[1..][j - 1] && ([h] + rest)[j] == rest[j - 1];
    if exists j :: 0 <= j < |rocks| && rocks[j].alive && Touches(b, rocks[j]) {
      var j :| 0 <= j < |rocks| && rocks[j].alive && Touches(b, rocks[j]);
      if j > 0 {
        assert rocks[1..][j - 1].alive && Touches(b, rocks[1..][j - 1]);
      }
    }
  }

  /** What `Collide` promises, as one predicate for the proof of its recursive step. */
  predicate CollideSpec(bs: seq<Bullet>, rocks: seq<Asteroid>, t: Tally, r: (seq<Bullet>, seq<Asteroid>, Tally)) {
    && Descends(rocks, r.1)
    && (forall j :: 0 <= j < |rocks| ==> (r.1[j].alive <==> rocks[j].alive && !Struck(bs, rocks[j])))
    && Accounted(rocks, r.1, t, r.2)
    && |r.0| == |bs|
    && (forall i :: 0 <= i < |bs| ==> r.0[i] == if Spends(bs, rocks, i) then bs[i].(life := 0) else bs[i])
  }

  /** The outer loop over the bullets; a bullet that hit has its life set to 0. */
  function Collide(bs: seq<Bullet>, rocks: seq<Asteroid>, t: Tally): (r: (seq<Bullet>, seq<Asteroid>, Tally))
    ensures Descends(rocks, r.1)
    ensures forall j :: 0 <= j < |rocks| ==> (r.1[j].alive <==> rocks[j].alive && !Struck(bs, rocks[j]))
    ensures Accounted(rocks, r.1, t, r.2)
    ensures |r.0| == |bs|
    ensures forall i :: 0 <= i < |bs| ==> r.0[i] == if Spends(bs, rocks, i) then bs[i].(life := 0) else bs[i]
    decreases |bs|
  {
    if |bs| == 0 then ([], rocks, t)
    else
      var b := bs[0];
      var s := Sweep(b, rocks, t);
      var rest := Collide(bs[1..], s.0, s.1);
      var spent := if s.2 then b.(life := 0) else b;
      CollideStep(bs, rocks, t, s, rest, spent);
      ([spent] + rest.0, rest.1, rest.2)
  }

  /** One bullet's sweep followed by the pass of the remaining bullets is the pass of all. */
  lemma CollideStep(bs: seq<Bullet>, rocks: seq<Asteroid>, t: Tally,
                    s: (seq<Asteroid>, Tally, bool), rest: (seq<Bullet>, seq<Asteroid>, Tally), spent: Bullet)
    requires |bs| > 0
    requires Descends(rocks, s.0)
    requires forall j :: 0 <= j < |rocks| ==> (s.0[j].alive <==> rocks[j].alive && !Touches(bs[0], rocks[j]))
    requires s.2 <==> exists j :: 0 <= j < |rocks| && rocks[j].alive && Touches(bs[0], rocks[j])
    requires Accounted(rocks, s.0, t, s.1)
    requires CollideSpec(bs[1..], s.0, s.1, rest)
    requires spent == if s.2 then bs[0].(life := 0) else bs[0]
    ensures CollideSpec(bs, rocks, t, ([spent] + rest.0, rest.1, rest.2))
  {
    AccountedTrans(rocks, s.0, rest.1, t, s.1, rest.2);
    StruckStep(bs, rocks, s.0, rest.1);
    SpentStep(bs, rocks, s.0, rest.0, spent);
  }

  /** An asteroid survives all bullets exactly when it survives the first and then the rest. */
  lemma StruckStep(bs: seq<Bullet>, rocks: seq<Asteroid>, mid: seq<Asteroid>, after: seq<Asteroid>)
    requires |bs| > 0
    requires Descends(rocks, mid)
    requires forall j :: 0 <= j < |rocks| ==> (mid[j].alive <==> rocks[j].alive && !Touches(bs[0], rocks[j]))
    requires |after| == |mid|
    requires forall j :: 0 <= j < |mid| ==> (after[j].alive <==> mid[j].alive && !Struck(bs[1..], mid[j]))
    ensures forall j :: 0 <= j < |rocks| ==> (after[j].alive <==> rocks[j].alive && !Struck(bs, rocks[j]))
  {
    assert forall i :: 1 <= i < |bs| ==> bs[i] == bs[1..][i - 1];
    forall j | 0 <= j < |rocks|
      ensures after[j].alive <==> rocks[j].alive && !Struck(bs, rocks[j])
    {
      assert Struck(bs[1..], mid[j]) == Struck(bs[1..], rocks[j]);
      assert Struck(bs, rocks[j]) <==> Touches(bs[0], rocks[j]) || Struck(bs[1..], rocks[j]);
    }
  }

  /** A bullet is spent exactly when it destroys an asteroid, for the first bullet and the rest alike. */
  lemma SpentStep(bs: seq<Bullet>, rocks: seq<Asteroid>, mid: seq<Asteroid>, rest: seq<Bullet>, spent: Bullet)
    requires |bs| > 0
    requires Descends(rocks, mid)
    requires forall j :: 0 <= j < |rocks| ==> (mid[j].alive <==> rocks[j].alive && !Touches(bs[0], rocks[j]))
    requires spent == if exists j :: 0 <= j < |rocks| && rocks[j].alive && Touches(bs[0], rocks[j]) then bs[0].(life := 0) else bs[0]
    requires |rest| == |bs| - 1
    requires forall i :: 0 <= i < |bs| - 1 ==> rest[i] == if Spends(bs[1..], mid, i) then bs[1..][i].(life := 0) else bs[1..][i]
    ensures var out := [spent] + rest;
      forall i :: 0 <= i < |bs| ==> out[i] == if Spends(bs, rocks, i) then bs[i].(life := 0) else bs[i]
  {
    var out := [spent] + rest;
    assert bs[..0] == [];
    forall i | 0 <= i < |bs|
      ensures out[i] == if Spends(bs, rocks, i) then bs[i].(life := 0) else bs[i]
    {
      if i > 0 {
        assert out[i] == rest[i - 1] && bs[i] == bs[1..][i - 1];
        SpendsLater(bs, rocks, mid, i);
      }
    }
  }

  /** A later bullet destroys an asteroid exactly when it does so among the first bullet's leftovers. */
  lemma SpendsLater(bs: seq<Bullet>, rocks: seq<Asteroid>, mid: seq<Asteroid>, i: int)
    requires 0 < i < |bs|
    requires Descends(rocks, mid)
    requires forall j :: 0 <= j < |rocks| ==> (mid[j].alive <==> rocks[j].alive && !Touches(bs[0], rocks[j]))
    ensures Spends(bs, rocks, i) <==> Spends(bs[1..], mid, i - 1)
  {
    var b := bs[i];
    assert bs[1..][i - 1] == b;
    assert bs[..i] == [bs[0]] + bs[1..][..i - 1];
    forall j | 0 <= j < |rocks|
      ensures (rocks[j].alive && Touches(b, rocks[j]) && !Struck(bs[..i], rocks[j])) <==>
              (mid[j].alive && Touches(b, mid[j]) && !Struck(bs[1..][..i - 1], mid[j]))
    {
      StruckPrefix(bs, i, rocks[j], mid[j]);
    }
    if Spends(bs, rocks, i) {
      var j :| 0 <= j < |rocks| && rocks[j].alive && Touches(b, rocks[j]) && !Struck(bs[..i], rocks[j]);
      assert mid[j].alive && Touches(b, mid[j]) && !Struck(bs[1..][..i - 1], mid[j]);
    }
    if Spends(bs[1..], mid, i - 1) {
      var j :| 0 <= j < |mid| && mid[j].alive && Touches(b, mid[j]) && !Struck(bs[1..][..i - 1], mid[j]);
      assert rocks[j].alive && Touches(b, rocks[j]) && !Struck(bs[..i], rocks[j]);
    }
  }

  /** Being struck by the first `i` bullets is being struck by the first or by the next `i - 1`. */
  lemma StruckPrefix(bs: seq<Bullet>, i: int, a: Asteroid, m: Asteroid)
    requires 0 < i <= |bs|
    requires m == a.(alive := m.alive)
    ensures Struck(bs[..i], a) <==> Touches(bs[0], a) || Struck(bs[1..][..i - 1], m)
  {
    var pre := bs[..i];
    var tail := bs[1..][..i - 1];
    assert forall k :: 1 <= k < i ==> pre[k] == tail[k - 1];
    assert forall k :: 0 <= k < i - 1 ==> Touches(tail[k], m) == Touches(tail[k], a);
    if Struck(pre, a) {
      var k :| 0 <= k < i && Touches(pre[k], a);
      if k > 0 {
        assert Touches(tail[k - 1], m);
      }
    }
    if Struck(tail, m) {
      var k :| 0 <= k < i - 1 && Touches(tail[k], m);
      assert Touches(pre[k + 1], a);
    }
  }

  /**
   * The asteroids the pass leaves, defined directly: the live asteroids of `rocks` that
   * no bullet of `bs` touches, in their order.
   */
  function Survivors(bs: seq<Bullet>, rocks: seq<Asteroid>): seq<Asteroid>
    decreases |rocks|
  {
    if |rocks| == 0 then []
    else (if rocks[0].alive && !Struck(bs, rocks[0]) then [rocks[0]] else []) + Survivors(bs, rocks[1..])
  }

  /** The live asteroids of `rocks` some bullet of `bs` touches: correct ones if `correct`, decoys if not. */
  function Kills(bs: seq<Bullet>, rocks: seq<Asteroid>, correct: bool): nat
    decreases |rocks|
  {
    if |rocks| == 0 then 0
    else
      var a := rocks[0];
      (if a.alive && a.isCorrect == correct && Struck(bs, a) then 1 else 0) + Kills(bs, rocks[1..], correct)
  }

  /**
   * The whole pass: the collision loops, then the dead asteroids filtered out.
   * The survivors are exactly the live asteroids no bullet touches, and every live
   * asteroid removed was counted once, as a hit if it was correct and a miss if not.
   */
  function Resolve(bs: seq<Bullet>, rocks: seq<Asteroid>, t: Tally): (r: (seq<Bullet>, seq<Asteroid>, Tally))
    ensures r.1 == Survivors(bs, rocks)
    ensures r.2.hits == t.hits + Kills(bs, rocks, true) && r.2.misses == t.misses + Kills(bs, rocks, false)
    ensures forall k :: 0 <= k < |r.1| ==> r.1[k].alive && r.1[k] in rocks && !Struck(bs, r.1[k])
    ensures forall j :: 0 <= j < |rocks| && rocks[j].alive && !Struck(bs, rocks[j]) ==> rocks[j] in r.1
    ensures (r.2.hits - t.hits) + (r.2.misses - t.misses) == Count(rocks, IsAlive) - |r.1|
    ensures Count(r.1, IsCorrect) == Count(rocks, IsLiveCorrect) - (r.2.hits - t.hits)
    ensures r.2.correctHit <==>
      t.correctHit || exists j :: 0 <= j < |rocks| && rocks[j].alive && rocks[j].isCorrect && Struck(bs, rocks[j])
    ensures t.score >= 0 ==> r.2.score >= 0
    ensures r.2.score >= t.score + KillBase * (r.2.hits - t.hits) - DecoyPenalty * (r.2.misses - t.misses)
    ensures r.2.hits >= t.hits && r.2.misses >= t.misses
    ensures r.2.correctHit <==> t.correctHit || r.2.hits > t.hits
    ensures t.score >= 0 && r.2.hits == t.hits ==> r.2.score == Docked(t.score, r.2.misses - t.misses)
    ensures |r.0| == |bs|
    ensures forall i :: 0 <= i < |bs| ==> r.0[i] == if Spends(bs, rocks, i) then bs[i].(life := 0) else bs[i]
    ensures forall i :: 0 <= i < |bs| ==> r.0[i] == bs[i] || r.0[i] == bs[i].(life := 0)
    ensures forall i :: 0 <= i < |bs| && r.0[i] != bs[i] ==> exists j :: 0 <= j < |rocks| && Touches(bs[i], rocks[j])
    ensures forall i, j ::
      0 <= i < |bs| && 0 <= j < |rocks| && rocks[j].alive && Touches(bs[i], rocks[j]) && !Struck(bs[..i], rocks[j])
      ==> r.0[i] == bs[i].(life := 0)
  {
    var c := Collide(bs, rocks, t);
    SurvivorMembers(bs, rocks, t, c);
    SurvivorCounts(bs, rocks, t, c);
    SurvivorCorrectHit(bs, rocks, t, c);
    SurvivorsExact(bs, rocks, c.1);
    (c.0, Filter(c.1, IsAlive), c.2)
  }

  /**
   * After every bullet has passed, the live asteroids left are `Survivors`, and the
   * newly dead ones are `Kills`: the correct ones and the decoys.
   */
  lemma {:induction false} SurvivorsExact(bs: seq<Bullet>, rocks: seq<Asteroid>, after: seq<Asteroid>)
    requires Descends(rocks, after)
    requires forall j :: 0 <= j < |rocks| ==> (after[j].alive <==> rocks[j].alive && !Struck(bs, rocks[j]))
    ensures Filter(after, IsAlive) == Survivors(bs, rocks)
    ensures Count(after, IsDeadCorrect) == Count(rocks, IsDeadCorrect) + Kills(bs, rocks, true)
    ensures Count(after, IsDeadDecoy) == Count(rocks, IsDeadDecoy) + Kills(bs, rocks, false)
    decreases |rocks|
  {
    if |rocks| > 0 {
      assert forall j :: 0 <= j < |rocks| - 1 ==> rocks[1..][j] == rocks[j + 1] && after[1..][j] == after[j + 1];
      SurvivorsExact(bs, rocks[1..], after[1..]);
    }
  }

  /** The survivors are exactly the live asteroids no bullet touched. */
  lemma SurvivorMembers(bs: seq<Bullet>, rocks: seq<Asteroid>, t: Tally, c: (seq<Bullet>, seq<Asteroid>, Tally))
    requires CollideSpec(bs, rocks, t, c)
    ensures var survivors := Filter(c.1, IsAlive);
      && (forall k :: 0 <= k < |survivors| ==> survivors[k].alive && survivors[k] in rocks && !Struck(bs, survivors[k]))
      && (forall j :: 0 <= j < |rocks| && rocks[j].alive && !Struck(bs, rocks[j]) ==> rocks[j] in survivors)
  {
    var after := c.1;
    var survivors := Filter(after, IsAlive);
    forall k | 0 <= k < |survivors|
      ensures survivors[k].alive && survivors[k] in rocks && !Struck(bs, survivors[k])
    {
      FilterFrom(after, IsAlive);
      var j :| 0 <= j < |after| && after[j] == survivors[k];
      assert after[j] == rocks[j];
    }
    forall j | 0 <= j < |rocks| && rocks[j].alive && !Struck(bs, rocks[j])
      ensures rocks[j] in survivors
    {
      FilterKeeps(after, IsAlive);
      assert after[j] == rocks[j] && IsAlive(after[j]);
    }
  }

  /** Every live asteroid removed was counted once, and the correct ones among them as hits. */
  lemma SurvivorCounts(bs: seq<Bullet>, rocks: seq<Asteroid>, t: Tally, c: (seq<Bullet>, seq<Asteroid>, Tally))
    requires CollideSpec(bs, rocks, t, c)
    ensures var survivors := Filter(c.1, IsAlive);
      && (c.2.hits - t.hits) + (c.2.misses - t.misses) == Count(rocks, IsAlive) - |survivors|
      && Count(survivors, IsCorrect) == Count(rocks, IsLiveCorrect) - (c.2.hits - t.hits)
  {
    var after := c.1;
    CountComplement(rocks, IsAlive, IsDead);
    CountSplit(rocks, IsDead, IsDeadCorrect, IsDeadDecoy);
    CountSplit(rocks, IsCorrect, IsLiveCorrect, IsDeadCorrect);
    CountComplement(after, IsAlive, IsDead);
    CountSplit(after, IsDead, IsDeadCorrect, IsDeadDecoy);
    CountFilter(after, IsAlive, IsCorrect, IsLiveCorrect);
    CountSplit(after, IsCorrect, IsLiveCorrect, IsDeadCorrect);
    CountPointwise(after, rocks, IsCorrect, IsCorrect);
  }

  /** The pass reports a correct kill exactly when some bullet touched a live correct asteroid. */
  lemma SurvivorCorrectHit(bs: seq<Bullet>, rocks: seq<Asteroid>, t: Tally, c: (seq<Bullet>, seq<Asteroid>, Tally))
    requires CollideSpec(bs, rocks, t, c)
    ensures c.2.correctHit <==>
      t.correctHit || exists j :: 0 <= j < |rocks| && rocks[j].alive && rocks[j].isCorrect && Struck(bs, rocks[j])
  {
    var after := c.1;
    if c.2.correctHit && !t.correctHit {
      assert Count(after, IsDeadCorrect) > Count(rocks, IsDeadCorrect);
      var j := DeadCorrectIndex(rocks, after);
      assert rocks[j].alive && rocks[j].isCorrect && Struck(bs, rocks[j]);
    }
    if !c.2.correctHit {
      CountMonotone(rocks, after, IsDeadCorrect, IsDeadCorrect);
      forall j | 0 <= j < |rocks| && rocks[j].alive && rocks[j].isCorrect
        ensures !Struck(bs, rocks[j])
      {
        if Struck(bs, rocks[j]) {
          CountStrict(rocks, after, j);
        }
      }
    }
  }

  /** More dead correct asteroids after than before means one of them died in between. */
  lemma {:induction false} DeadCorrectIndex(before: seq<Asteroid>, after: seq<Asteroid>) returns (j: int)
    requires Descends(before, after)
    requires Count(after, IsDeadCorrect) > Count(before, IsDeadCorrect)
    ensures 0 <= j < |before| && before[j].alive && !after[j].alive && before[j].isCorrect
  {
    assert forall i :: 1 <= i < |before| ==> before[i] == before[1..][i - 1] && after[i] == after[1..][i - 1];
    if IsDeadCorrect(after[0]) && !IsDeadCorrect(before[0]) {
      j := 0;
    } else {
      var k := DeadCorrectIndex(before[1..], after[1..]);
      j := k + 1;
    }
  }

  /** A correct asteroid that dies raises the count of dead correct asteroids. */
  lemma {:induction false} CountStrict(before: seq<Asteroid>, after: seq<Asteroid>, j: int)
    requires Descends(before, after)
    requires 0 <= j < |before| && before[j].alive && !after[j].alive && before[j].isCorrect
    ensures Count(after, IsDeadCorrect) > Count(before, IsDeadCorrect)
  {
    assert forall i :: 1 <= i < |before| ==> before[i] == before[1..][i - 1] && after[i] == after[1..][i - 1];
    if j == 0 {
      CountMonotone(before[1..], after[1..], IsDeadCorrect, IsDeadCorrect);
    } else {
      CountStrict(before[1..], after[1..], j - 1);
    }
  }

  /** A bullet at (100, 100) hits a size-18 asteroid at (105, 100) but not one at (200, 100). */
  lemma CollisionExamples()
    ensures Touches(Bullet(100, 100, 0, 0, 1), Asteroid(105, 100, 0, 0, 0, 0, 18, "水", false, true))
    ensures !Touches(Bullet(100, 100, 0, 0, 1), Asteroid(200, 100, 0, 0, 0, 0, 18, "水", false, true))
  {
  }

  /**
   * A bullet that strikes a decoy next to an untouched correct asteroid removes the
   * decoy only, counts one miss and takes 50 points off; the bullet is spent.
   */
  lemma DecoyHitCosts()
    ensures var x := Bullet(100, 100, 0, 0, 5);
      var a := Asteroid(400, 300, 0, 0, 0, 0, 18, "水", true, true);
      var b := Asteroid(101, 100, 0, 0, 0, 0, 18, "猫", false, true);
      var r := Resolve([x], [a, b], Tally(200, 0, 0, false));
      r.1 == [a] && r.2.hits == 0 && r.2.misses == 1 && r.2.score == 150 && !r.2.correctHit && r.0 == [x.(life := 0)]
  {
    var x := Bullet(100, 100, 0, 0, 5);
    var a := Asteroid(400, 300, 0, 0, 0, 0, 18, "水", true, true);
    var b := Asteroid(101, 100, 0, 0, 0, 0, 18, "猫", false, true);
    var rocks := [a, b];
    assert !Touches(x, a) && Touches([x][0], b);
    assert !Struck([x], a) && Struck([x], b);
    assert rocks[0] == a && rocks[1..] == [b] && [b][0] == b && [b][1..] == [];
    assert Survivors([x], [b]) == [];
    assert Survivors([x], rocks) == [a];
    assert Kills([x], [b], true) == 0 && Kills([x], [b], false) == 1;
    assert Kills([x], rocks, true) == 0 && Kills([x], rocks, false) == 1;
    assert [x][..0] == [];
    assert Spends([x], rocks, 0);
  }

  /**
   * Two bullets on one live decoy: the first destroys it and is spent; the second
   * reaches only a dead asteroid, so it keeps flying and no second miss is counted.
   */
  lemma SecondBulletFlies()
    ensures var x := Bullet(100, 100, 0, 0, 5);
      var y := Bullet(102, 100, 0, 0, 5);
      var a := Asteroid(101, 100, 0, 0, 0, 0, 18, "猫", false, true);
      var r := Resolve([x, y], [a], Tally(200, 0, 0, false));
      r.0 == [x.(life := 0), y] && r.1 == [] && r.2.misses == 1 && r.2.score == 150
  {
    var x := Bullet(100, 100, 0, 0, 5);
    var y := Bullet(102, 100, 0, 0, 5);
    var a := Asteroid(101, 100, 0, 0, 0, 0, 18, "猫", false, true);
    TwoBulletsOneDecoy(x, y, a);
    var r := Resolve([x, y], [a], Tally(200, 0, 0, false));
    assert |r.0| == 2 && r.0[0] == x.(life := 0) && r.0[1] == y;
  }

  /** The pass facts behind `SecondBulletFlies`, for any two bullets touching one live decoy. */
  lemma TwoBulletsOneDecoy(x: Bullet, y: Bullet, a: Asteroid)
    requires a.alive && !a.isCorrect && Touches(x, a) && Touches(y, a)
    ensures Spends([x, y], [a], 0) && !Spends([x, y], [a], 1)
    ensures Survivors([x, y], [a]) == []
    ensures Kills([x, y], [a], true) == 0 && Kills([x, y], [a], false) == 1
  {
    var bs := [x, y];
    var before := bs[..1];
    assert bs[..0] == [] && before == [x] && Touches(before[0], a);
    assert Struck(before, a) && Touches(bs[0], a) && Struck(bs, a);
    assert [a][0] == a && [a][1..] == [];
    assert !Spends(bs, [a], 1) by {
      forall j | 0 <= j < |[a]|
        ensures Struck(bs[..1], [a][j])
      {
        assert [a][j] == a;
      }
    }
  }

  /** One bullet over two coinciding decoys destroys both, costing two misses. */
  lemma OneBulletTwoKills()
    ensures var b := Bullet(100, 100, 0, 0, 5);
      var a := Asteroid(101, 100, 0, 0, 0, 0, 18, "猫", false, true);
      var r := Resolve([b], [a, a], Tally(200, 0, 0, false));
      r.1 == [] && r.2.misses == 2 && r.2.score == 100 && r.0 == [b.(life := 0)]
  {
    var b := Bullet(100, 100, 0, 0, 5);
    var a := Asteroid(101, 100, 0, 0, 0, 0, 18, "猫", false, true);
    assert Touches(b, a);
    var s := Sweep(b, [a, a], Tally(200, 0, 0, false));
    assert [a, a][1..] == [a];
    assert s.0 == [a.(alive := false), a.(alive := false)];
  }
}

=== FILE: entities.dfy ===
/**
 * The game's configuration (`CONFIG`) and its records: the ship, the bullets, the
 * asteroids (the "wanted posters" carrying a Chinese word) and the aggregate state.
 *
 * Coordinates, velocities and sizes are whole numbers; the game's floating-point
 * kinematics are supplied from outside (see the Step module).
 */
module Entities {
  import opened Wrappers
  import opened Vocabulary

  const Width: int := 960
  const Height: int := 600
  const ShipRadius: nat := 14
  const BulletLife: int := 70
  const ShotCooldownMs: int := 180
  const MinSize: nat := 18
  const MaxSize: nat := 42
  const SpawnPadding: int := 40
  const StartLives: int := 3
  /** Frames of invulnerability after a (re)spawn of the ship. */
  const InvulnFrames: int := 120
  /** The ship's starting heading, −π/2 radians (pointing up), in milliradians. */
  const UpHeading: int := -1571

  /** Levels start at 1 and only grow. */
  type Level = n: int | n >= 1 witness 1

  datatype Ship = Ship(x: int, y: int, vx: int, vy: int, heading: int, invuln: int)

  datatype Bullet = Bullet(x: int, y: int, vx: int, vy: int, life: int)

  datatype Asteroid = Asteroid(
    x: int, y: int, vx: int, vy: int,
    angle: int, rot: int,
    size: nat,
    text: string,
    isCorrect: bool,
    alive: bool)

  /** `State`, without the keyboard flags and frame clock, which come in with each frame. */
  datatype Game = Game(
    running: bool,
    paused: bool,
    level: Level,
    score: int,
    lives: int,
    hits: nat,
    misses: nat,
    bullets: seq<Bullet>,
    asteroids: seq<Asteroid>,
    vocab: Vocab,
    target: Option<VocabPair>,
    lastShotTime: int,
    ship: Ship)

  /** The ship placed at the centre, at rest, pointing up. */
  function CentredShip(invuln: int): (s: Ship)
    ensures 0 <= s.x < Width && 0 <= s.y < Height
    ensures s.vx == 0 && s.vy == 0 && s.invuln == invuln
  {
    Ship(Width / 2, Height / 2, 0, 0, UpHeading, invuln)
  }

  /** The squared Euclidean distance of two points. */
  function SqDist(x1: int, y1: int, x2: int, y2: int): nat {
    var dx := x1 - x2;
    var dy := y1 - y2;
    assert dx * dx >= 0 && dy * dy >= 0;
    dx * dx + dy * dy
  }

  /** `dist(x1, y1, x2, y2) < r`, exactly, for whole coordinates and a non-negative bound. */
  predicate Within(x1: int, y1: int, x2: int, y2: int, r: nat) {
    SqDist(x1, y1, x2, y2) < r * r
  }

  predicate IsCorrect(a: Asteroid) { a.isCorrect }
  predicate IsAlive(a: Asteroid) { a.alive }
  predicate IsLiveCorrect(a: Asteroid) { a.alive && a.isCorrect }
  predicate IsDeadCorrect(a: Asteroid) { !a.alive && a.isCorrect }
  predicate IsDead(a: Asteroid) { !a.alive }
  predicate IsDeadDecoy(a: Asteroid) { !a.alive && !a.isCorrect }
}

=== FILE: scoring.dfy ===
/** Scoring a destroyed asteroid, and the accuracy shown on the HUD and the game-over panel. */
module Scoring {
  import opened Utilities
  import opened Entities

  const KillBase: int := 100
  const SizeBonus: int := 5
  const DecoyPenalty: int := 50

  /**
   * The score after `m` decoy kills from `score`, each one taking 50 off and
   * flooring at zero: once the floor is reached it stays there.
   */
  function Docked(score: int, m: nat): (r: int)
    ensures r >= 0
    ensures score >= 0 ==> r <= score
  {
    if score - DecoyPenalty * m > 0 then score - DecoyPenalty * m else 0
  }

  /** Docking in two rounds is docking once by their sum. */
  lemma DockedTwice(score: int, m1: nat, m2: nat)
    requires score >= 0
    ensures Docked(Docked(score, m1), m2) == Docked(score, m1 + m2)
  {
  }

  /** What the collision pass accumulates: score, hit and miss counts, and `correctHit`. */
  datatype Tally = Tally(score: int, hits: nat, misses: nat, correctHit: bool)

  /**
   * The scoring branch of a bullet hit: a correct asteroid adds `100 + round(5 * size)`
   * and counts a hit; a decoy takes off 50 points, never below zero, and counts a miss.
   */
  function ScoreKill(t: Tally, a: Asteroid): (r: Tally)
    ensures a.isCorrect ==>
      && r.hits == t.hits + 1 && r.misses == t.misses && r.correctHit
      && r.score >= t.score + KillBase
    ensures !a.isCorrect ==>
      && r.hits == t.hits && r.misses == t.misses + 1 && r.correctHit == t.correctHit
      && r.score >= 0 && r.score >= t.score - DecoyPenalty
      && (t.score >= 0 ==> r.score <= t.score)
      && (t.score >= DecoyPenalty ==> r.score == t.score - DecoyPenalty)
      && (0 <= t.score <= DecoyPenalty ==> r.score == 0)
    ensures t.score >= 0 ==> r.score >= 0
  {
    if a.isCorrect then
      Tally(t.score + KillBase + SizeBonus * a.size, t.hits + 1, t.misses, true)
    else
      var lowered := t.score - DecoyPenalty;
      Tally(if lowered > 0 then lowered else 0, t.hits, t.misses + 1, t.correctHit)
  }

  /**
   * The hit percentage of all destroyed asteroids, rounded half up, and 0 before any
   * asteroid has been destroyed.
   */
  function Accuracy(hits: nat, misses: nat): (pct: nat)
    ensures hits + misses == 0 ==> pct == 0
    ensures pct <= 100
    ensures hits + misses > 0 ==>
      (pct as real) - 0.5 <= 100.0 * (hits as real) / ((hits + misses) as real) < (pct as real) + 0.5
  {
    var total := hits + misses;
    if total == 0 then 0
    else
      var pct := (200 * hits + total) / (2 * total);
      RoundedShare(hits, total, pct);
      pct
  }

  lemma RoundedShare(hits: nat, total: nat, pct: int)
    requires 0 < total && hits <= total
    requires pct == (200 * hits + total) / (2 * total)
    ensures 0 <= pct <= 100
    ensures (pct as real) - 0.5 <= 100.0 * (hits as real) / (total as real) < (pct as real) + 0.5
  {
    IntRounding(hits, total, pct);
    var a := total * pct;
    assert 2 * a - total <= 200 * hits < 2 * a + total;
    CastProduct(total, pct);
    RealRounding(hits as real, total as real, pct as real);
  }

  lemma CastProduct(a: int, b: int)
    ensures (a * b) as real == (a as real) * (b as real)
  {
  }

  lemma IntRounding(hits: nat, total: nat, pct: int)
    requires 0 < total && hits <= total
    requires pct == (200 * hits + total) / (2 * total)
    ensures 0 <= pct <= 100
    ensures 2 * (total * pct) - total <= 200 * hits < 2 * (total * pct) + total
  {
    var n := 200 * hits + total;
    var d := 2 * total;
    DivMod(n, d);
    assert d * pct == 2 * (total * pct);
    if pct > 100 {
      MulMonotone(101, pct, d);
    }
  }

  lemma RealRounding(h: real, t: real, p: real)
    requires t > 0.0
    requires 2.0 * (t * p) - t <= 200.0 * h < 2.0 * (t * p) + t
    ensures p - 0.5 <= 100.0 * h / t < p + 0.5
  {
    var x := 100.0 * h / t;
    var xt := x * t;
    assert xt == 100.0 * h;
    var lo := (p - 0.5) * t;
    var hi := (p + 0.5) * t;
    assert lo == t * p - 0.5 * t;
    assert hi == t * p + 0.5 * t;
    assert lo <= xt < hi;
    ScaleBack(p - 0.5, x, t);
    if x >= p + 0.5 {
      ScaleUp(p + 0.5, x, t);
    }
  }

  /** Dividing both sides of `a * t <= b * t` by a positive `t`. */
  lemma ScaleBack(a: real, b: real, t: real)
    requires t > 0.0 && a * t <= b * t
    ensures a <= b
  {
    if a > b {
      ScaleUp(b, a, t);
    }
  }

  lemma ScaleUp(a: real, b: real, t: real)
    requires t > 0.0 && a <= b
    ensures a * t <= b * t
  {
    assert b * t - a * t == (b - a) * t;
  }

  lemma AccuracyExamples()
    ensures Accuracy(7, 3) == 70
    ensures Accuracy(0, 0) == 0
    ensures Accuracy(1, 2) == 33
    ensures Accuracy(1, 7) == 13
  {
  }
}

=== FILE: seqs.dfy ===
/** Counting and filtering over sequences, the shapes `Array.prototype.filter` takes in the game. */
module Seqs {
  import opened Wrappers

  /** The number of elements of `s` that satisfy `p`. */
  function Count<T>(s: seq<T>, p: T -> bool): (n: nat)
    ensures n <= |s|
    ensures n == 0 <==> forall i :: 0 <= i < |s| ==> !p(s[i])
  {
    if |s| == 0 then 0
    else
      var rest := Count(s[1..], p);
      assert forall i :: 1 <= i < |s| ==> s[i] == s[1..][i - 1];
      (if p(s[0]) then 1 else 0) + rest
  }

  /** The elements of `s` that satisfy `p`, in order. */
  function Filter<T>(s: seq<T>, p: T -> bool): (r: seq<T>)
    ensures |r| == Count(s, p)
    ensures forall i :: 0 <= i < |r| ==> p(r[i])
  {
    if |s| == 0 then []
    else
      var rest := Filter(s[1..], p);
      (if p(s[0]) then [s[0]] else []) + rest
  }

  /** Everything `Filter` keeps comes from its input. */
  lemma {:induction false} FilterFrom<T>(s: seq<T>, p: T -> bool)
    ensures forall i :: 0 <= i < |Filter(s, p)| ==> Filter(s, p)[i] in s
  {
    if |s| > 0 {
      FilterFrom(s[1..], p);
      assert forall i :: 1 <= i < |s| ==> s[i] == s[1..][i - 1];
    }
  }

  /** `Filter` keeps every element that satisfies `p`. */
  lemma {:induction false} FilterKeeps<T>(s: seq<T>, p: T -> bool)
    ensures forall i :: 0 <= i < |s| && p(s[i]) ==> s[i] in Filter(s, p)
  {
    if |s| > 0 {
      FilterKeeps(s[1..], p);
      assert forall i :: 1 <= i < |s| ==> s[i] == s[1..][i - 1];
    }
  }

  /** `f` applied to every element, in order. */
  function Map<T, U>(s: seq<T>, f: T -> U): (r: seq<U>)
    ensures |r| == |s| && forall i :: 0 <= i < |s| ==> r[i] == f(s[i])
  {
    if |s| == 0 then []
    else
      var rest := Map(s[1..], f);
      assert forall i :: 1 <= i < |s| ==> s[i] == s[1..][i - 1];
      [f(s[0])] + rest
  }

  /** Mapping distributes over concatenation. */
  lemma MapAppend<T, U>(a: seq<T>, b: seq<T>, f: T -> U)
    ensures Map(a + b, f) == Map(a, f) + Map(b, f)
  {
    assert forall i :: 0 <= i < |a| ==> (a + b)[i] == a[i];
    assert forall i :: |a| <= i < |a| + |b| ==> (a + b)[i] == b[i - |a|];
  }

  /** Filtering distributes over concatenation. */
  lemma {:induction false} FilterAppend<T>(a: seq<T>, b: seq<T>, p: T -> bool)
    ensures Filter(a + b, p) == Filter(a, p) + Filter(b, p)
  {
    if |a| > 0 {
      assert (a + b)[0] == a[0];
      assert (a + b)[1..] == a[1..] + b;
      FilterAppend(a[1..], b, p);
    } else {
      assert a + b == b;
    }
  }

  /** Filtering a sequence whose every element passes changes nothing. */
  lemma {:induction false} FilterAll<T>(s: seq<T>, p: T -> bool)
    requires forall i :: 0 <= i < |s| ==> p(s[i])
    ensures Filter(s, p) == s
  {
    if |s| > 0 {
      assert forall i :: 1 <= i < |s| ==> s[1..][i - 1] == s[i];
      FilterAll(s[1..], p);
      assert s == [s[0]] + s[1..];
    }
  }

  /** The values `f` gives for the elements it accepts, in order. */
  function FilterMap<T, U>(s: seq<T>, f: T -> Option<U>): (r: seq<U>)
    ensures |r| <= |s|
    ensures forall i :: 0 <= i < |s| && f(s[i]).Some? ==> f(s[i]).value in r
  {
    if |s| == 0 then []
    else
      var rest := FilterMap(s[1..], f);
      assert forall i :: 1 <= i < |s| ==> s[i] == s[1..][i - 1];
      if f(s[0]).Some? then [f(s[0]).value] + rest else rest
  }

  /** Every value `FilterMap` gives is what `f` gives for some element. */
  lemma {:induction false} FilterMapFrom<T, U>(s: seq<T>, f: T -> Option<U>)
    ensures forall k :: 0 <= k < |FilterMap(s, f)| ==> exists i :: 0 <= i < |s| && f(s[i]) == Some(FilterMap(s, f)[k])
  {
    if |s| > 0 {
      var r := FilterMap(s, f);
      var rest := FilterMap(s[1..], f);
      FilterMapFrom(s[1..], f);
      var d := if f(s[0]).Some? then 1 else 0;
      assert |r| == |rest| + d && forall k :: d <= k < |r| ==> r[k] == rest[k - d];
      forall k | 0 <= k < |r|
        ensures exists i :: 0 <= i < |s| && f(s[i]) == Some(r[k])
      {
        if k < d {
          assert f(s[0]) == Some(r[k]);
        } else {
          var j :| 0 <= j < |s[1..]| && f(s[1..][j]) == Some(rest[k - d]);
          assert s[1..][j] == s[j + 1];
        }
      }
      assert forall k :: 0 <= k < |r| ==> exists i :: 0 <= i < |s| && f(s[i]) == Some(r[k]);
    } else {
      assert |FilterMap(s, f)| == 0;
    }
  }

  /** When `f` accepts every element, `FilterMap` returns all of its values. */
  lemma {:induction false} FilterMapAll<T, U>(s: seq<T>, f: T -> Option<U>, xs: seq<U>)
    requires |s| == |xs|
    requires forall i :: 0 <= i < |s| ==> f(s[i]) == Some(xs[i])
    ensures FilterMap(s, f) == xs
  {
    if |s| > 0 {
      assert forall i :: 1 <= i < |s| ==> s[1..][i - 1] == s[i] && xs[1..][i - 1] == xs[i];
      FilterMapAll(s[1..], f, xs[1..]);
      assert xs == [xs[0]] + xs[1..];
    }
  }

  /** `FilterMap` distributes over concatenation. */
  lemma {:induction false} FilterMapAppend<T, U>(a: seq<T>, b: seq<T>, f: T -> Option<U>)
    ensures FilterMap(a + b, f) == FilterMap(a, f) + FilterMap(b, f)
  {
    if |a| > 0 {
      assert (a + b)[0] == a[0];
      assert (a + b)[1..] == a[1..] + b;
      FilterMapAppend(a[1..], b, f);
    } else {
      assert a + b == b;
    }
  }

  /** Exactly one element satisfies `p` exactly when it is counted once. */
  lemma {:induction false} CountOne<T>(s: seq<T>, p: T -> bool, k: int)
    requires 0 <= k < |s| && p(s[k])
    requires forall i :: 0 <= i < |s| && i != k ==> !p(s[i])
    ensures Count(s, p) == 1
  {
    if k == 0 {
      assert forall i :: 0 <= i < |s| - 1 ==> s[1..][i] == s[i + 1];
      assert Count(s[1..], p) == 0;
    } else {
      assert forall i :: 0 <= i < |s| - 1 ==> s[1..][i] == s[i + 1];
      CountOne(s[1..], p, k - 1);
    }
  }

  /** Counting by `p` splits into counting by two disjoint predicates that cover it. */
  lemma {:induction false} CountSplit<T>(s: seq<T>, p: T -> bool, q: T -> bool, r: T -> bool)
    requires forall x :: p(x) <==> (q(x) || r(x))
    requires forall x :: !(q(x) && r(x))
    ensures Count(s, p) == Count(s, q) + Count(s, r)
  {
    if |s| > 0 {
      CountSplit(s[1..], p, q, r);
    }
  }

  /** Every element satisfies exactly one of two complementary predicates. */
  lemma {:induction false} CountComplement<T>(s: seq<T>, p: T -> bool, q: T -> bool)
    requires forall x :: p(x) <==> !q(x)
    ensures Count(s, p) + Count(s, q) == |s|
  {
    if |s| > 0 {
      CountComplement(s[1..], p, q);
    }
  }

  /** Counting by `q` after filtering by `p` is counting by their conjunction `pq`. */
  lemma {:induction false} CountFilter<T>(s: seq<T>, p: T -> bool, q: T -> bool, pq: T -> bool)
    requires forall x :: pq(x) <==> (p(x) && q(x))
    ensures Count(Filter(s, p), q) == Count(s, pq)
  {
    if |s| > 0 {
      CountFilter(s[1..], p, q, pq);
      var head := if p(s[0]) then [s[0]] else [];
      CountAppend(head, Filter(s[1..], p), q);
    }
  }

  /** Counting distributes over concatenation. */
  lemma {:induction false} CountAppend<T>(a: seq<T>, b: seq<T>, p: T -> bool)
    ensures Count(a + b, p) == Count(a, p) + Count(b, p)
  {
    if |a| > 0 {
      assert (a + b)[1..] == a[1..] + b;
      CountAppend(a[1..], b, p);
    } else {
      assert a + b == b;
    }
  }

  /** Two sequences that agree index by index on the counted property have equal counts. */
  lemma {:induction false} CountPointwise<T, U>(s: seq<T>, t: seq<U>, p: T -> bool, q: U -> bool)
    requires |s| == |t|
    requires forall i :: 0 <= i < |s| ==> (p(s[i]) <==> q(t[i]))
    ensures Count(s, p) == Count(t, q)
  {
    if |s| > 0 {
      assert forall i :: 0 <= i < |s| - 1 ==> s[1..][i] == s[i + 1] && t[1..][i] == t[i + 1];
      CountPointwise(s[1..], t[1..], p, q);
    }
  }

  /** Index by index implication between the counted properties bounds the counts. */
  lemma {:induction false} CountMonotone<T, U>(s: seq<T>, t: seq<U>, p: T -> bool, q: U -> bool)
    requires |s| == |t|
    requires forall i :: 0 <= i < |s| ==> p(s[i]) ==> q(t[i])
    ensures Count(s, p) <= Count(t, q)
  {
    if |s| > 0 {
      assert forall i :: 0 <= i < |s| - 1 ==> s[1..][i] == s[i + 1] && t[1..][i] == t[i + 1];
      CountMonotone(s[1..], t[1..], p, q);
    }
  }
}

=== FILE: session.dfy ===
/**
 * The game's lifecycle outside the frame loop: the initial state, `resetState`, the
 * Start, Pause and Reset buttons, and loading an uploaded vocabulary. A session is a
 * sequence of such events and frames; every one of them keeps the state invariant.
 */
module Session {
  import opened Wrappers
  import opened Vocabulary
  import opened Entities
  import opened Waves
  import opened Step

  /**
   * What holds of the state between events: the score is never negative, the lives
   * stay within [0, 3] and are positive while the game runs, only a running game is
   * paused, the invulnerability countdown stays within [0, 120], and a running game
   * has an intact wave.
   */
  predicate Inv(g: Game) {
    && g.score >= 0
    && 0 <= g.lives <= StartLives
    && (g.running ==> g.lives > 0)
    && (g.paused ==> g.running)
    && 0 <= g.ship.invuln <= InvulnFrames
    && (g.running ==> WaveIntact(g))
  }

  /** `State` as the page declares it: stopped, with the default vocabulary and a vulnerable ship. */
  function Boot(): (g: Game)
    ensures Inv(g) && !g.running
    ensures g.vocab == DefaultVocab && g.ship.invuln == 0
  {
    Game(false, false, 1, 0, StartLives, 0, 0, [], [], DefaultVocab, None, 0, CentredShip(0))
  }

  /**
   * `resetState`: everything but the vocabulary returns to the start of a game, with
   * the ship centred and invulnerable for 120 frames.
   */
  function ResetState(g: Game): (r: Game)
    ensures Inv(r) && !r.running && !r.paused
    ensures r.vocab == g.vocab
    ensures r.level == 1 && r.score == 0 && r.lives == StartLives && r.hits == 0 && r.misses == 0
    ensures r.bullets == [] && r.asteroids == [] && r.target == None && r.lastShotTime == 0
    ensures r.ship == CentredShip(InvulnFrames)
  {
    Game(false, false, 1, 0, StartLives, 0, 0, [], [], g.vocab, None, 0, CentredShip(InvulnFrames))
  }

  /** A reset forgets everything but the vocabulary: two states with the same vocabulary reset alike. */
  lemma ResetForgets(g: Game, h: Game)
    requires g.vocab == h.vocab
    ensures ResetState(g) == ResetState(h)
  {
  }

  /** The Start button: reset, run, and spawn the first wave from the current vocabulary. */
  function Start(g: Game, d: WaveDraws): (r: Game)
    ensures Inv(r) && r.running && !r.paused
    ensures r.vocab == g.vocab && r.target.Some? && r.target.value in g.vocab
    ensures forall i :: 0 <= i < |r.asteroids| ==> Translates(g.vocab, r.asteroids[i].text)
    ensures r.level == 1 && r.score == 0 && r.lives == StartLives && r.hits == 0 && r.misses == 0
    ensures |r.asteroids| == WaveCount(1) && r.bullets == [] && WaveIntact(r)
    ensures r.ship == CentredShip(InvulnFrames) && r.lastShotTime == 0
  {
    Spawn(ResetState(g).(running := true), d)
  }

  /** The Pause button: toggles only while the game runs, and changes nothing else. */
  function TogglePause(g: Game): (r: Game)
    ensures !g.running ==> r == g
    ensures g.running ==> r.paused != g.paused && r == g.(paused := r.paused)
  {
    if !g.running then g else g.(paused := !g.paused)
  }

  /**
   * The Reset button: the game stops and returns to the start of level 1, with the
   * vocabulary kept, no wave and no prompt until the next Start.
   */
  function Reset(g: Game): (r: Game)
    ensures Inv(r) && !r.running && !r.paused && r.vocab == g.vocab
    ensures r.level == 1 && r.score == 0 && r.lives == StartLives && r.hits == 0 && r.misses == 0
    ensures r.bullets == [] && r.asteroids == [] && r.target == None && r.lastShotTime == 0
    ensures r.ship == CentredShip(InvulnFrames)
  {
    ResetState(g)
  }

  /**
   * The upload handler once the file is read: a non-empty list replaces the
   * vocabulary and an empty one leaves the state untouched. The game in progress,
   * its prompt included, carries on.
   */
  function LoadVocab(g: Game, list: seq<VocabPair>): (r: Game)
    ensures |list| > 0 ==> r.vocab == list
    ensures |list| == 0 ==> r == g
    ensures r == g.(vocab := r.vocab)
  {
    if |list| > 0 then g.(vocab := list) else g
  }

  /** Uploading a CSV file: its text parsed by `parseCSV`, then loaded. */
  function UploadCSV(g: Game, text: string): (r: Game)
    ensures |ParseCSV(text)| > 0 ==> r.vocab == ParseCSV(text)
    ensures |ParseCSV(text)| == 0 ==> r == g
    ensures r == g.(vocab := r.vocab)
    ensures r.vocab == g.vocab || forall k :: 0 <= k < |r.vocab| ==> ValidPair(r.vocab[k])
    ensures r.vocab != g.vocab ==> |r.vocab| <= |CleanLines(Lines(text))|
  {
    LoadVocab(g, ParseCSV(text))
  }

  /** Uploading the CSV rendering of a non-empty list of well-formed pairs loads exactly that list. */
  lemma {:induction false} UploadRendered(g: Game, ps: seq<VocabPair>)
    requires |ps| > 0
    requires forall k :: 0 <= k < |ps| ==> ValidPair(ps[k])
    ensures UploadCSV(g, Render(ps)).vocab == ps
  {
    ParseRender(ps);
  }

  /** The inputs a session is made of. */
  datatype Event =
    | Tick(f: Frame)
    | StartClick(d: WaveDraws)
    | PauseClick
    | ResetClick
    | Upload(text: string)

  function Apply(g: Game, e: Event): Game {
    match e
    case Tick(f) => Update(g, f)
    case StartClick(d) => Start(g, d)
    case PauseClick => TogglePause(g)
    case ResetClick => Reset(g)
    case Upload(text) => UploadCSV(g, text)
  }

  /** The state after a sequence of events. */
  function Run(g: Game, es: seq<Event>): Game
    decreases |es|
  {
    if |es| == 0 then g else Run(Apply(g, es[0]), es[1..])
  }

  /** Every event keeps the invariant. */
  lemma ApplyKeepsInv(g: Game, e: Event)
    requires Inv(g)
    ensures Inv(Apply(g, e))
  {
    match e
    case Tick(f) =>
      assert Inv(Update(g, f));
    case StartClick(d) =>
    case PauseClick =>
    case ResetClick =>
    case Upload(text) =>
  }

  /** Every session from a state satisfying the invariant keeps it, whatever the events. */
  lemma {:induction false} RunKeepsInv(g: Game, es: seq<Event>)
    requires Inv(g)
    ensures Inv(Run(g, es))
    decreases |es|
  {
    if |es| > 0 {
      ApplyKeepsInv(g, es[0]);
      RunKeepsInv(Apply(g, es[0]), es[1..]);
    }
  }

  /** In particular every session from page load keeps it. */
  lemma {:induction false} SessionKeepsInv(es: seq<Event>)
    ensures Inv(Run(Boot(), es))
  {
    RunKeepsInv(Boot(), es);
  }

  /** Without Start or Reset the level, the hits and the misses never fall. */
  predicate NoRestart(es: seq<Event>) {
    forall i :: 0 <= i < |es| ==> !es[i].StartClick? && !es[i].ResetClick?
  }

  lemma {:induction false} ProgressKept(g: Game, es: seq<Event>)
    requires NoRestart(es)
    ensures Run(g, es).level >= g.level
    ensures Run(g, es).hits >= g.hits && Run(g, es).misses >= g.misses
    decreases |es|
  {
    if |es| > 0 {
      ProgressKept(Apply(g, es[0]), es[1..]);
    }
  }

  /** A paused game ignores every frame: any number of ticks leave it as it was. */
  predicate OnlyTicks(es: seq<Event>) {
    forall i :: 0 <= i < |es| ==> es[i].Tick?
  }

  lemma {:induction false} PausedFreezes(g: Game, es: seq<Event>)
    requires g.paused && OnlyTicks(es)
    ensures Run(g, es) == g
    decreases |es|
  {
    if |es| > 0 {
      PausedFreezes(Apply(g, es[0]), es[1..]);
    }
  }

  /** Pausing twice restores the state. */
  lemma PauseTwice(g: Game)
    ensures TogglePause(TogglePause(g)) == g
  {
  }

  /** Starting after a reset is starting: Start resets first. */
  lemma StartResets(g: Game, d: WaveDraws)
    ensures Start(Reset(g), d) == Start(g, d)
  {
  }
}

=== FILE: step.dfy ===
/**
 * `update`, one frame of the game: the ship drifts, may fire, bullets and asteroids
 * move, bullets destroy asteroids, an asteroid may ram the ship, a correct kill
 * advances the level, and running out of lives ends the game.
 *
 * The frame's floating-point kinematics (rotation, thrust, friction, the unit heading
 * vector) and the clock come in with the `Frame`.
 */
module Step {
  import opened Wrappers
  import opened Seqs
  import opened Utilities
  import opened Entities
  import opened Waves
  import opened Scoring
  import opened Collisions

  /** The ship's heading and velocity after this frame's rotation, thrust and friction. */
  datatype Steering = Steering(heading: int, vx: int, vy: int)

  /**
   * A new bullet's offset from the ship (the unit heading times the ship's radius) and
   * its velocity (the unit heading times the bullet speed).
   */
  datatype Muzzle = Muzzle(dx: int, dy: int, vx: int, vy: int)

  /**
   * What one call of `update` takes from outside: the time `now()`, the fire key, the
   * ship's kinematics, the muzzle, and the draws for a wave spawned in this frame.
   */
  datatype Frame = Frame(now: int, shoot: bool, steer: Steering, muzzle: Muzzle, draws: WaveDraws)

  /** The ship's integration step: new velocity, position advanced and wrapped, invulnerability counted down. */
  function Drift(s: Ship, st: Steering): (r: Ship)
    ensures r.heading == st.heading && r.vx == st.vx && r.vy == st.vy
    ensures (s.x + st.vx - r.x) % Width == 0 && (s.y + st.vy - r.y) % Height == 0
    ensures s.x + st.vx >= -Width ==> 0 <= r.x < Width
    ensures s.y + st.vy >= -Height ==> 0 <= r.y < Height
    ensures r.invuln >= 0
    ensures s.invuln > 0 ==> r.invuln == s.invuln - 1
    ensures r.invuln == 0 <==> s.invuln <= 1
  {
    Ship(Wrap(s.x + st.vx, Width), Wrap(s.y + st.vy, Height), st.vx, st.vy, st.heading,
         if s.invuln - 1 > 0 then s.invuln - 1 else 0)
  }

  /**
   * The time since the last shot exceeds the cooldown divided by 1 + level * 0.05. The
   * division is cleared by multiplying both sides by 20 * (1 + level * 0.05), which is
   * `20 + level`.
   */
  predicate ShotReady(elapsed: int, level: Level) {
    elapsed * (20 + level) > ShotCooldownMs * 20
  }

  /** The cooldown in milliseconds at a level, over the reals. */
  function Cooldown(level: int): real
    requires level >= 0
  {
    (ShotCooldownMs as real) / (1.0 + (level as real) * 0.05)
  }

  /** The integer test is exactly the source's comparison against the real cooldown. */
  lemma ShotReadyIff(elapsed: int, level: Level)
    ensures ShotReady(elapsed, level) <==> (elapsed as real) > Cooldown(level)
  {
    var d := (20 + level) as real;
    var c := Cooldown(level);
    var e := elapsed as real;
    assert (1.0 + (level as real) * 0.05) * 20.0 == d;
    assert c * d == 3600.0 by {
      assert c * (1.0 + (level as real) * 0.05) == 180.0;
    }
    assert (elapsed * (20 + level)) as real == e * d;
    if e > c {
      ScaleUpStrict(c, e, d);
    } else {
      ScaleUp(e, c, d);
    }
  }

  lemma ScaleUpStrict(a: real, b: real, t: real)
    requires t > 0.0 && a < b
    ensures a * t < b * t
  {
  }

  /** The cooldown shortens as the level rises: a shot ready at one level is ready at every higher one. */
  lemma {:induction false} CooldownShortens(elapsed: int, l1: Level, l2: Level)
    requires l1 <= l2
    requires ShotReady(elapsed, l1)
    ensures ShotReady(elapsed, l2)
    ensures elapsed > 0
  {
    if elapsed <= 0 {
      MulMonotone(elapsed, 0, 20 + l1);
    }
    MulMonotone(20 + l1, 20 + l2, elapsed);
  }

  /** A shot is always ready after the level-1 cooldown, and never before a positive wait. */
  lemma ShotReadyBounds(elapsed: int, level: Level)
    ensures elapsed > ShotCooldownMs ==> ShotReady(elapsed, level)
    ensures elapsed <= 0 ==> !ShotReady(elapsed, level)
  {
    if elapsed > ShotCooldownMs {
      MulMonotone(21, 20 + level, elapsed);
      MulMonotone(ShotCooldownMs + 1, elapsed, 21);
    } else if elapsed <= 0 {
      MulMonotone(elapsed, 0, 20 + level);
    }
  }

  /** The bullet pushed by a shot: at the muzzle, with the full lifetime. */
  function Fire(s: Ship, m: Muzzle): (b: Bullet)
    ensures b.life == BulletLife
    ensures b.x - s.x == m.dx && b.y - s.y == m.dy && b.vx == m.vx && b.vy == m.vy
  {
    Bullet(s.x + m.dx, s.y + m.dy, m.vx, m.vy, BulletLife)
  }

  /** A bullet still in flight, `b.life > 0`. */
  predicate Airborne(b: Bullet) { b.life > 0 }

  /** One bullet's step: advanced, wrapped, one frame older. */
  function AgeBullet(b: Bullet): (r: Bullet)
    ensures r.life == b.life - 1 && r.vx == b.vx && r.vy == b.vy
    ensures (b.x + b.vx - r.x) % Width == 0 && (b.y + b.vy - r.y) % Height == 0
  {
    Bullet(Wrap(b.x + b.vx, Width), Wrap(b.y + b.vy, Height), b.vx, b.vy, b.life - 1)
  }

  /** The bullet loop, then the bullets with no life left filtered out. */
  function AgeBullets(bs: seq<Bullet>): (r: seq<Bullet>)
    ensures |r| <= |bs|
    ensures forall k :: 0 <= k < |r| ==> Airborne(r[k])
    ensures forall k :: 0 <= k < |r| ==> exists i :: 0 <= i < |bs| && r[k] == AgeBullet(bs[i])
  {
    var aged := seq(|bs|, i requires 0 <= i < |bs| => AgeBullet(bs[i]));
    assert forall i :: 0 <= i < |bs| ==> aged[i] == AgeBullet(bs[i]);
    var r := Filter(aged, Airborne);
    assert forall k :: 0 <= k < |r| ==> exists i :: 0 <= i < |bs| && r[k] == AgeBullet(bs[i]) by {
      forall k | 0 <= k < |r|
        ensures exists i :: 0 <= i < |bs| && r[k] == AgeBullet(bs[i])
      {
        FilterFrom(aged, Airborne);
        var i :| 0 <= i < |aged| && aged[i] == r[k];
      }
    }
    r
  }

  /** Every bullet with more than one frame of life left survives the aging. */
  lemma AgeBulletsKeep(bs: seq<Bullet>)
    ensures forall i :: 0 <= i < |bs| && bs[i].life > 1 ==> AgeBullet(bs[i]) in AgeBullets(bs)
  {
    var aged := seq(|bs|, i requires 0 <= i < |bs| => AgeBullet(bs[i]));
    assert forall i :: 0 <= i < |bs| ==> aged[i] == AgeBullet(bs[i]);
    FilterKeeps(aged, Airborne);
  }

  /** Aging distributes over concatenation: the survivors keep their order. */
  lemma AgeBulletsAppend(a: seq<Bullet>, b: seq<Bullet>)
    ensures AgeBullets(a + b) == AgeBullets(a) + AgeBullets(b)
  {
    var agedA := seq(|a|, i requires 0 <= i < |a| => AgeBullet(a[i]));
    var agedB := seq(|b|, i requires 0 <= i < |b| => AgeBullet(b[i]));
    var agedAB := seq(|a + b|, i requires 0 <= i < |a + b| => AgeBullet((a + b)[i]));
    assert agedAB == agedA + agedB;
    FilterAppend(agedA, agedB, Airborne);
  }

  /** One bullet survives its aging exactly when it had more than one frame of life left. */
  lemma AgeBulletsOne(b: Bullet)
    ensures AgeBullets([b]) == if b.life > 1 then [AgeBullet(b)] else []
  {
  }

  /** A bullet aged `n` frames. */
  function AgeTimes(b: Bullet, n: nat): Bullet
    decreases n
  {
    if n == 0 then b else AgeTimes(AgeBullet(b), n - 1)
  }

  /** Aging `n` frames takes `n` off the life and keeps the velocity. */
  lemma {:induction false} AgeTimesLife(b: Bullet, n: nat)
    ensures AgeTimes(b, n).life == b.life - n
    ensures AgeTimes(b, n).vx == b.vx && AgeTimes(b, n).vy == b.vy
    decreases n
  {
    if n > 0 {
      AgeTimesLife(AgeBullet(b), n - 1);
    }
  }

  /** A fired bullet is still in flight after `n` agings exactly when `n` is below its lifetime of 70. */
  lemma {:induction false} FreshBulletFlies(s: Ship, m: Muzzle, n: nat)
    ensures Airborne(AgeTimes(Fire(s, m), n)) <==> n < BulletLife
  {
    AgeTimesLife(Fire(s, m), n);
  }

  /** One asteroid's step: advanced, wrapped, turned by its spin; nothing else changes. */
  function DriftAsteroid(a: Asteroid): (r: Asteroid)
    ensures r == a.(x := r.x, y := r.y, angle := r.angle)
    ensures r.angle == a.angle + a.rot
    ensures (a.x + a.vx - r.x) % Width == 0 && (a.y + a.vy - r.y) % Height == 0
    ensures a.x + a.vx >= -Width ==> 0 <= r.x < Width
    ensures a.y + a.vy >= -Height ==> 0 <= r.y < Height
  {
    a.(x := Wrap(a.x + a.vx, Width), y := Wrap(a.y + a.vy, Height), angle := a.angle + a.rot)
  }

  /** The asteroid loop of `update`. */
  function DriftAsteroids(rocks: seq<Asteroid>): (r: seq<Asteroid>)
    ensures |r| == |rocks|
    ensures forall i :: 0 <= i < |rocks| ==> r[i] == DriftAsteroid(rocks[i])
  {
    seq(|rocks|, i requires 0 <= i < |rocks| => DriftAsteroid(rocks[i]))
  }

  /**
   * An asteroid spawned above the top edge and drifting down by less than the padding
   * is wrapped at once to the bottom edge: `(-40 + vy + 600) % 600` is `560 + vy`.
   */
  lemma TopSpawnAppearsAtBottom(a: Asteroid)
    requires a.y == -SpawnPadding && 0 <= a.vy < SpawnPadding
    ensures DriftAsteroid(a).y == Height - SpawnPadding + a.vy
  {
    var r := DriftAsteroid(a);
    assert 0 <= r.y < Height;
    assert (a.y + a.vy - r.y) % Height == 0;
  }

  /** The ship's centre is closer to the asteroid's than the asteroid's size plus the ship's radius. */
  predicate Rammed(s: Ship, a: Asteroid) {
    Within(s.x, s.y, a.x, a.y, a.size + ShipRadius)
  }

  /** The ship-collision loop up to its `break`: the first asteroid that rams the ship, if any. */
  function FirstContact(s: Ship, rocks: seq<Asteroid>): (o: Option<nat>)
    ensures o.Some? ==> o.value < |rocks| && Rammed(s, rocks[o.value])
    ensures o.Some? ==> forall k :: 0 <= k < o.value ==> !Rammed(s, rocks[k])
    ensures o.None? <==> forall k :: 0 <= k < |rocks| ==> !Rammed(s, rocks[k])
  {
    if |rocks| == 0 then None
    else if Rammed(s, rocks[0]) then Some(0)
    else
      var rest := FirstContact(s, rocks[1..]);
      assert forall k :: 1 <= k < |rocks| ==> rocks[k] == rocks[1..][k - 1];
      if rest.Some? then Some(rest.value + 1) else None
  }

  /**
   * Ship against asteroids, only while the ship is not invulnerable: on contact one life is lost
   * and the ship is replaced by a fresh one at the centre; at most one life per frame.
   */
  function Crash(s: Ship, rocks: seq<Asteroid>, lives: int): (r: (Ship, int))
    ensures r.1 == lives || r.1 == lives - 1
    ensures r.1 == lives - 1 <==> s.invuln == 0 && exists k :: 0 <= k < |rocks| && Rammed(s, rocks[k])
    ensures r.1 == lives - 1 ==> r.0 == CentredShip(InvulnFrames)
    ensures r.1 == lives ==> r.0 == s
  {
    if s.invuln == 0 && FirstContact(s, rocks).Some? then (CentredShip(InvulnFrames), lives - 1)
    else (s, lives)
  }

  /** Whether the frame fires: the key is down and the cooldown has passed. */
  predicate Fired(g: Game, f: Frame) {
    f.shoot && ShotReady(f.now - g.lastShotTime, g.level)
  }

  /**
   * The bullets after the shooting and aging steps: a frame that fires adds a bullet at
   * the drifted ship's muzzle, which is still in flight after its first aging; every
   * bullet in flight is an aged old bullet or that new one.
   */
  function Flying(g: Game, f: Frame): (r: seq<Bullet>)
    ensures Fired(g, f) ==> AgeBullet(Fire(Drift(g.ship, f.steer), f.muzzle)) in r
    ensures !Fired(g, f) ==> r == AgeBullets(g.bullets)
    ensures |r| <= |g.bullets| + (if Fired(g, f) then 1 else 0)
    ensures forall k :: 0 <= k < |r| ==> Airborne(r[k])
  {
    var ship := Drift(g.ship, f.steer);
    var added := Fire(ship, f.muzzle);
    var pool := if Fired(g, f) then g.bullets + [added] else g.bullets;
    assert forall i :: 0 <= i < |pool| ==> pool[i] in g.bullets || (Fired(g, f) && pool[i] == added);
    assert Fired(g, f) ==> pool[|pool| - 1] == added;
    AgeBulletsKeep(pool);
    AgeBullets(pool)
  }

  /**
   * The bullets in flight after the frame are the old bullets aged, in their order,
   * followed by the new bullet aged when the frame fires.
   */
  lemma FlyingExact(g: Game, f: Frame)
    ensures Flying(g, f) == AgeBullets(g.bullets) + if Fired(g, f) then [AgeBullet(Fire(Drift(g.ship, f.steer), f.muzzle))] else []
  {
    var added := Fire(Drift(g.ship, f.steer), f.muzzle);
    AgeBulletsAppend(g.bullets, [added]);
    AgeBulletsOne(added);
  }

  /** Every bullet in flight after the frame is an aged old bullet or the aged new one. */
  lemma FlyingFrom(g: Game, f: Frame)
    ensures var r := Flying(g, f);
      forall k :: 0 <= k < |r| ==>
        || (exists i :: 0 <= i < |g.bullets| && r[k] == AgeBullet(g.bullets[i]))
        || (Fired(g, f) && r[k] == AgeBullet(Fire(Drift(g.ship, f.steer), f.muzzle)))
  {
  }

  /** The result of the bullet × asteroid pass over the moved asteroids, scoring from the state's tally. */
  function Shot(g: Game, f: Frame): (seq<Bullet>, seq<Asteroid>, Tally) {
    Resolve(Flying(g, f), DriftAsteroids(g.asteroids), Tally(g.score, g.hits, g.misses, false))
  }

  /** Some live correct asteroid was struck by a bullet this frame. */
  predicate CorrectStruck(g: Game, f: Frame) {
    var moved := DriftAsteroids(g.asteroids);
    exists j :: 0 <= j < |moved| && moved[j].alive && moved[j].isCorrect && Struck(Flying(g, f), moved[j])
  }

  /**
   * The level-up branch: one level higher, the remaining asteroids and all bullets
   * cleared, and a fresh wave spawned for the new level.
   */
  function Advance(g: Game, d: WaveDraws): (r: Game)
    ensures r.level == g.level + 1
    ensures r.bullets == []
    ensures |r.asteroids| == WaveCount(r.level)
    ensures WaveIntact(r) && r.target.value in g.vocab
    ensures r == g.(level := r.level, bullets := [], asteroids := r.asteroids, target := r.target)
  {
    Spawn(g.(level := g.level + 1, bullets := [], asteroids := []), d)
  }

  /** `endGame`: the game stops; everything else, the final score included, is kept for the report. */
  function EndGame(g: Game): (r: Game)
    ensures !r.running
    ensures r == g.(running := r.running)
  {
    g.(running := false)
  }

  /**
   * The frame up to the level-up check: ship drift, shooting, bullet aging, asteroid
   * motion, the bullet pass and the ship collision.
   */
  function Aftermath(g: Game, f: Frame): (r: Game)
    ensures r.bullets == Shot(g, f).0 && r.asteroids == Shot(g, f).1
    ensures r.score == Shot(g, f).2.score && r.hits == Shot(g, f).2.hits && r.misses == Shot(g, f).2.misses
    ensures (r.ship, r.lives) == Crash(Drift(g.ship, f.steer), Shot(g, f).1, g.lives)
    ensures r == g.(ship := r.ship, lives := r.lives, score := r.score, hits := r.hits, misses := r.misses,
                    bullets := r.bullets, asteroids := r.asteroids, lastShotTime := r.lastShotTime)
    ensures WaveIntact(g) && !Shot(g, f).2.correctHit ==> WaveIntact(r)
    ensures r.lastShotTime == if Fired(g, f) then f.now else g.lastShotTime
  {
    var ship := Drift(g.ship, f.steer);
    var hit := Shot(g, f);
    DecoyKillsKeepWave(g, DriftAsteroids(g.asteroids), hit.1);
    var crash := Crash(ship, hit.1, g.lives);
    g.(ship := crash.0, lives := crash.1,
       score := hit.2.score, hits := hit.2.hits, misses := hit.2.misses,
       bullets := hit.0, asteroids := hit.1,
       lastShotTime := if Fired(g, f) then f.now else g.lastShotTime)
  }

  /** The end of the frame: the level-up on a correct kill, then game over when no life is left. */
  function Conclude(g: Game, correctHit: bool, d: WaveDraws): (r: Game)
    ensures correctHit ==> r.level == g.level + 1 && r.bullets == [] && |r.asteroids| == WaveCount(r.level) && WaveIntact(r)
    ensures !correctHit ==> r.level == g.level && r.asteroids == g.asteroids && r.target == g.target && r.bullets == g.bullets
    ensures r.running <==> g.running && g.lives > 0
    ensures r == g.(running := r.running, level := r.level, bullets := r.bullets, asteroids := r.asteroids, target := r.target)
  {
    var next := if correctHit then Advance(g, d) else g;
    if next.lives <= 0 then EndGame(next) else next
  }

  /**
   * `update` without the HUD writes. It does nothing unless the game runs and is not
   * paused. Otherwise the level rises by one exactly when a live correct asteroid was
   * struck; a life is lost exactly when the ship is vulnerable and some asteroid no
   * bullet destroyed rams it; the score never goes below zero; the wave stays intact;
   * and the game stops exactly when no life is left.
   */
  function Update(g: Game, f: Frame): (r: Game)
    ensures !g.running || g.paused ==> r == g
    ensures r.vocab == g.vocab && r.paused == g.paused
    ensures r.level == g.level || r.level == g.level + 1
    ensures g.running && !g.paused ==> (r.level == g.level + 1 <==> CorrectStruck(g, f))
    ensures r.level == g.level + 1 ==> r.bullets == [] && |r.asteroids| == WaveCount(r.level)
    ensures r.lives == g.lives || r.lives == g.lives - 1
    ensures g.running && !g.paused ==>
      (r.lives == g.lives - 1 <==>
        g.ship.invuln <= 1 && exists k :: 0 <= k < |Shot(g, f).1| && Rammed(Drift(g.ship, f.steer), Shot(g, f).1[k]))
    ensures r.lives == g.lives - 1 ==> r.ship == CentredShip(InvulnFrames)
    ensures g.score >= 0 ==> r.score >= 0
    ensures r.hits >= g.hits && r.misses >= g.misses
    ensures r.score >= g.score + KillBase * (r.hits - g.hits) - DecoyPenalty * (r.misses - g.misses)
    ensures g.score >= 0 && r.hits == g.hits ==> r.score == Docked(g.score, r.misses - g.misses)
    ensures g.running && !g.paused ==> r.lastShotTime == if Fired(g, f) then f.now else g.lastShotTime
    ensures g.running && !g.paused ==> (r.running <==> r.lives > 0)
    ensures !g.running ==> !r.running
    ensures WaveIntact(g) ==> WaveIntact(r)
    ensures 0 <= g.ship.invuln <= InvulnFrames ==> 0 <= r.ship.invuln <= InvulnFrames
  {
    if !g.running || g.paused then g
    else Conclude(Aftermath(g, f), Shot(g, f).2.correctHit, f.draws)
  }

  /**
   * A played frame's tally: one hit per live correct asteroid struck and one miss per
   * live decoy struck, so each decoy kill costs its 50 points; without a level-up the
   * asteroids left are the survivors of the bullet pass.
   */
  lemma FrameTally(g: Game, f: Frame)
    ensures var r := Update(g, f);
      g.running && !g.paused ==>
        && r.hits == g.hits + Kills(Flying(g, f), DriftAsteroids(g.asteroids), true)
        && r.misses == g.misses + Kills(Flying(g, f), DriftAsteroids(g.asteroids), false)
        && (!CorrectStruck(g, f) ==> r.asteroids == Survivors(Flying(g, f), DriftAsteroids(g.asteroids)))
        && (!CorrectStruck(g, f) ==> r.bullets == Shot(g, f).0)
        && (!CorrectStruck(g, f) && g.score >= 0 ==>
              r.score == Docked(g.score, Kills(Flying(g, f), DriftAsteroids(g.asteroids), false)))
  {
  }

  /**
   * Survivors of an intact wave's move that kept its one correct asteroid (no hit was
   * counted) are still an intact wave.
   */
  lemma DecoyKillsKeepWave(g: Game, moved: seq<Asteroid>, survivors: seq<Asteroid>)
    requires moved == DriftAsteroids(g.asteroids)
    requires forall k :: 0 <= k < |survivors| ==> survivors[k].alive && survivors[k] in moved
    ensures WaveIntact(g) && Count(survivors, IsCorrect) == Count(moved, IsLiveCorrect) ==>
      WaveIntact(g.(asteroids := survivors))
  {
    if WaveIntact(g) && Count(survivors, IsCorrect) == Count(moved, IsLiveCorrect) {
      CountPointwise(moved, g.asteroids, IsLiveCorrect, IsCorrect);
      KeptTexts(g.asteroids, moved, survivors, g.target.value.zh);
    }
  }

  /** Survivors drawn from a drifted wave keep the texts of the wave they came from. */
  lemma KeptTexts(rocks: seq<Asteroid>, moved: seq<Asteroid>, survivors: seq<Asteroid>, zh: string)
    requires |moved| == |rocks| && forall i :: 0 <= i < |rocks| ==> moved[i] == DriftAsteroid(rocks[i])
    requires forall i :: 0 <= i < |rocks| ==> rocks[i].isCorrect ==> rocks[i].text == zh
    requires forall k :: 0 <= k < |survivors| ==> survivors[k] in moved
    ensures forall k :: 0 <= k < |survivors| ==> survivors[k].isCorrect ==> survivors[k].text == zh
  {
    forall k | 0 <= k < |survivors| && survivors[k].isCorrect
      ensures survivors[k].text == zh
    {
      var j :| 0 <= j < |moved| && moved[j] == survivors[k];
      assert moved[j].text == rocks[j].text;
    }
  }

  /**
   * The asteroids that can ram the ship are the live ones that no bullet struck in the
   * same frame: a bullet kill earlier in the frame saves the ship.
   */
  lemma CrashOnlyBySurvivor(g: Game, f: Frame)
    requires g.running && !g.paused
    ensures var ship := Drift(g.ship, f.steer);
      var moved := DriftAsteroids(g.asteroids);
      Update(g, f).lives == g.lives - 1 <==>
        g.ship.invuln <= 1 &&
        exists j :: 0 <= j < |moved| && moved[j].alive && !Struck(Flying(g, f), moved[j]) && Rammed(ship, moved[j])
  {
    SurvivorRams(Flying(g, f), DriftAsteroids(g.asteroids), Shot(g, f).1, Drift(g.ship, f.steer));
  }

  /** Some survivor of the bullet pass rams the ship exactly when some live asteroid no bullet touched does. */
  lemma SurvivorRams(bs: seq<Bullet>, rocks: seq<Asteroid>, survivors: seq<Asteroid>, ship: Ship)
    requires forall k :: 0 <= k < |survivors| ==> survivors[k].alive && survivors[k] in rocks && !Struck(bs, survivors[k])
    requires forall j :: 0 <= j < |rocks| && rocks[j].alive && !Struck(bs, rocks[j]) ==> rocks[j] in survivors
    ensures (exists k :: 0 <= k < |survivors| && Rammed(ship, survivors[k])) <==>
      (exists j :: 0 <= j < |rocks| && rocks[j].alive && !Struck(bs, rocks[j]) && Rammed(ship, rocks[j]))
  {
    if exists k :: 0 <= k < |survivors| && Rammed(ship, survivors[k]) {
      var k :| 0 <= k < |survivors| && Rammed(ship, survivors[k]);
      var j :| 0 <= j < |rocks| && rocks[j] == survivors[k];
    }
    if exists j :: 0 <= j < |rocks| && rocks[j].alive && !Struck(bs, rocks[j]) && Rammed(ship, rocks[j]) {
      var j :| 0 <= j < |rocks| && rocks[j].alive && !Struck(bs, rocks[j]) && Rammed(ship, rocks[j]);
      var k :| 0 <= k < |survivors| && survivors[k] == rocks[j];
    }
  }

  /**
   * The wrap invariant for the ship: a ship on the field stays on the field when its
   * speed this frame is below the field's size, whether it drifts or is re-centred.
   */
  lemma ShipStaysOnField(g: Game, f: Frame)
    requires 0 <= g.ship.x < Width && 0 <= g.ship.y < Height
    requires -Width <= f.steer.vx && -Height <= f.steer.vy
    ensures var r := Update(g, f);
      0 <= r.ship.x < Width && 0 <= r.ship.y < Height
  {
  }
}

=== FILE: utilities.dfy ===
/**
 * The scalar helpers of the game: the toroidal `wrap`, and `Math.random` with the
 * two helpers built on it (`choose` and `rand`).
 *
 * `Math.random()` returns a double in [0, 1). The model takes its values to be the
 * multiples of 2^-53 in that range, k / 2^53 for a whole k with 0 <= k < 2^53, and a
 * random draw is that k, passed in by the caller. This is a modelling choice: doubles
 * below 1/2 can have finer fractions, and those are not modelled.
 */
module Utilities {
  import opened Wrappers

  /** 2^53, the denominator of every modelled value of `Math.random()`. */
  const RandScale: int := 0x20_0000_0000_0000

  /** One value of `Math.random()`, as its numerator over `RandScale`. */
  type Rand = k: int | 0 <= k < RandScale

  /**
   * A random index below `len`: the draw scaled to `len` and truncated to an integer.
   * For the small lengths the game uses, truncation is the floor.
   */
  function PickIndex(r: Rand, len: int): (i: nat)
    requires len > 0
    ensures i < len
    ensures i * RandScale <= r * len < (i + 1) * RandScale
  {
    assert r * len < RandScale * len;
    (r * len) / RandScale
  }

  /** Every slot below `len` is the pick of some draw, so no slot is unreachable. */
  lemma EverySlotReachable(len: int, i: int)
    requires 0 < len <= RandScale
    requires 0 <= i < len
    ensures exists r: Rand :: PickIndex(r, len) == i
  {
    var k := (i * RandScale + len - 1) / len;
    assert k * len <= i * RandScale + len - 1 < k * len + len;
    assert i * RandScale <= k * len;
    assert k * len < i * RandScale + len <= (i + 1) * RandScale;
    assert (i + 1) * RandScale <= len * RandScale;
    assert 0 <= k < RandScale;
    var r: Rand := k;
    PickIndexFromBucket(r, len, i);
  }

  /** The bucket inequality determines the pick. */
  lemma PickIndexFromBucket(r: Rand, len: int, i: int)
    requires len > 0 && 0 <= i
    requires i * RandScale <= r * len < (i + 1) * RandScale
    ensures PickIndex(r, len) == i
  {
  }

  /** `choose(arr)`: an element picked by the draw; indexing an empty array yields `undefined`. */
  function Choose<T>(arr: seq<T>, r: Rand): (o: Option<T>)
    ensures o.Some? <==> |arr| > 0
    ensures o.Some? ==> o.value in arr
  {
    if |arr| == 0 then None else Some(arr[PickIndex(r, |arr|)])
  }

  /** `rand(lo, hi)`: a draw scaled into [lo, hi), rounded down to a whole number. */
  function RandRange(lo: int, hi: int, r: Rand): (v: int)
    requires lo < hi
    ensures lo <= v < hi
  {
    lo + PickIndex(r, hi - lo)
  }

  /** The quotient JavaScript's `%` pairs with: the true quotient truncated toward zero. */
  function JsQuot(a: int, b: int): int
    requires b > 0
  {
    if a >= 0 then a / b else -((-a) / b)
  }

  /** Euclidean division, as Dafny defines `/` and `%` for a positive divisor. */
  lemma DivMod(a: int, b: int)
    requires b > 0
    ensures a == b * (a / b) + a % b
    ensures 0 <= a % b < b
  {
  }

  /** JavaScript's `%` for a positive divisor: the remainder takes the sign of the dividend. */
  function JsRem(a: int, b: int): (r: int)
    requires b > 0
    ensures a >= 0 ==> 0 <= r < b
    ensures a < 0 ==> -b < r <= 0
    ensures a - r == b * JsQuot(a, b)
  {
    if a >= 0 then
      DivMod(a, b);
      a % b
    else
      DivMod(-a, b);
      -((-a) % b)
  }

  /** `wrap(x, max)`, `(x + max) % max`: puts a coordinate back on the torus. */
  function Wrap(x: int, max: int): (r: int)
    requires max > 0
    ensures x + max >= 0 ==> 0 <= r < max
    ensures x + max < 0 ==> -max < r <= 0
    ensures x - r == max * (JsQuot(x + max, max) - 1)
    ensures (x - r) % max == 0
  {
    var r := JsRem(x + max, max);
    var q := JsQuot(x + max, max);
    assert x + max - r == max * q;
    MulSub(max, q);
    MultipleMod(max, q - 1);
    r
  }

  /** Multiplying by a non-negative factor keeps order. */
  lemma MulMonotone(a: int, b: int, c: nat)
    requires a <= b
    ensures a * c <= b * c
  {
  }

  /** A multiple of `m` leaves no remainder. */
  lemma MultipleMod(m: int, k: int)
    requires m > 0
    ensures (m * k) % m == 0
  {
    DivMod(m * k, m);
    var q := (m * k) / m;
    var rem := (m * k) % m;
    assert m * (k - q) == rem by { MulDist(m, k, q); }
    if k - q > 0 {
      MulMonotone(1, k - q, m);
    } else if k - q < 0 {
      MulMonotone(k - q, -1, m);
    }
  }

  lemma MulSub(a: int, q: int)
    ensures a * (q - 1) == a * q - a
  {
  }

  /** `max * d` lies strictly between `-max` and `max` only for `d == 0`. */
  lemma MulSmall(max: int, d: int)
    requires max > 0
    requires -max < max * d < max
    ensures d == 0
  {
  }

  /**
   * `wrap` agrees with the mathematical modulo exactly when the coordinate is no
   * more than one full `max` below zero, or happens to be a multiple of `max`.
   */
  lemma WrapIsModuloIff(x: int, max: int)
    requires max > 0
    ensures Wrap(x, max) == x % max <==> (x >= -max || x % max == 0)
  {
    var w := Wrap(x, max);
    var m := x % max;
    var q := JsQuot(x + max, max) - 1;
    DivMod(x, max);
    var d := q - x / max;
    assert x - w == max * q;
    assert m - w == max * q - max * (x / max);
    MulDist(max, q, x / max);
    assert m - w == max * d;
    if x >= -max || m == 0 {
      MulSmall(max, d);
    }
  }

  lemma MulDist(a: int, b: int, c: int)
    ensures a * b - a * c == a * (b - c)
  {
  }

  /** A coordinate more than one `max` below zero is not wrapped onto the torus. */
  lemma WrapFarBelow()
    ensures Wrap(-1000, 960) == -40
  {
  }
}

=== FILE: vocabulary.dfy ===
/**
 * The vocabulary: English/Chinese word pairs, the built-in list, and the parser for
 * uploaded CSV text (`parseCSV`: one `english, chinese` pair per line).
 */
module Vocabulary {
  import opened Wrappers
  import opened Seqs

  datatype VocabPair = VocabPair(en: string, zh: string)

  /** An active vocabulary is never empty: every wave draws its prompt from it. */
  type Vocab = v: seq<VocabPair> | |v| > 0 witness [VocabPair("hello", "你好")]

  /** The list the game starts with. */
  const DefaultVocab: Vocab := [
    VocabPair("hello", "你好"),
    VocabPair("thank you", "谢谢"),
    VocabPair("goodbye", "再见"),
    VocabPair("please", "请"),
    VocabPair("sorry", "对不起"),
    VocabPair("apple", "苹果"),
    VocabPair("water", "水"),
    VocabPair("teacher", "老师"),
    VocabPair("student", "学生"),
    VocabPair("book", "书"),
    VocabPair("cat", "猫"),
    VocabPair("dog", "狗"),
    VocabPair("blue", "蓝色"),
    VocabPair("red", "红色"),
    VocabPair("green", "绿色")
  ]

  // ---------------------------------------------------------------- trimming

  /** The characters `String.prototype.trim` removes: ECMAScript WhiteSpace and LineTerminator. */
  predicate IsSpace(c: char) {
    || c == '\t' || c == '\n' || c == '\U{000B}' || c == '\U{000C}' || c == '\r' || c == ' '
    || c == '\U{00A0}' || c == '\U{1680}' || ('\U{2000}' <= c <= '\U{200A}')
    || c == '\U{2028}' || c == '\U{2029}' || c == '\U{202F}' || c == '\U{205F}'
    || c == '\U{3000}' || c == '\U{FEFF}'
  }

  predicate AllSpace(s: string) {
    forall k :: 0 <= k < |s| ==> IsSpace(s[k])
  }

  /** Neither end of `s` is whitespace. */
  predicate Trimmed(s: string) {
    |s| == 0 || (!IsSpace(s[0]) && !IsSpace(s[|s| - 1]))
  }

  /** `r` is the slice of `s` starting at `i`, with only whitespace around it. */
  predicate CutFrom(s: string, r: string, i: int) {
    && 0 <= i && i + |r| <= |s|
    && r == s[i..i + |r|]
    && AllSpace(s[..i]) && AllSpace(s[i + |r|..])
  }

  function TrimStart(s: string): (r: string)
    ensures |r| <= |s| && r == s[|s| - |r|..]
    ensures |r| > 0 ==> !IsSpace(r[0])
    ensures AllSpace(s[..|s| - |r|])
    decreases |s|
  {
    if |s| > 0 && IsSpace(s[0]) then
      var r := TrimStart(s[1..]);
      assert s[..|s| - |r|] == [s[0]] + s[1..][..|s| - 1 - |r|];
      r
    else s
  }

  function TrimEnd(s: string): (r: string)
    ensures |r| <= |s| && r == s[..|r|]
    ensures |r| > 0 ==> !IsSpace(r[|r| - 1])
    ensures AllSpace(s[|r|..])
    decreases |s|
  {
    if |s| > 0 && IsSpace(s[|s| - 1]) then
      var r := TrimEnd(s[..|s| - 1]);
      assert s[|r|..] == s[..|s| - 1][|r|..] + [s[|s| - 1]];
      r
    else s
  }

  /** `s.trim()`: the longest slice of `s` whose ends are not whitespace; `TrimCuts` says which slice. */
  function Trim(s: string): (r: string)
    ensures Trimmed(r)
    ensures Trimmed(s) ==> r == s
  {
    TrimEnd(TrimStart(s))
  }

  /** Trimming cuts a slice out of the string with only whitespace around it. */
  lemma TrimCuts(s: string)
    ensures exists i :: CutFrom(s, Trim(s), i)
  {
    TrimCut(s, TrimStart(s), Trim(s));
  }

  /** Trimming the start and then the end cuts a slice with only whitespace around it. */
  lemma TrimCut(s: string, t: string, r: string)
    requires |t| <= |s| && t == s[|s| - |t|..] && AllSpace(s[..|s| - |t|])
    requires |r| <= |t| && r == t[..|r|] && AllSpace(t[|r|..])
    ensures CutFrom(s, r, |s| - |t|)
  {
    var i := |s| - |t|;
    var j := i + |r|;
    assert forall k :: 0 <= k < |r| ==> s[i..j][k] == t[k] == r[k];
    assert s[i..j] == r;
    assert forall k :: 0 <= k < |s| - j ==> s[j..][k] == t[|r|..][k];
    assert s[j..] == t[|r|..];
  }

  /** Whatever `Trim` keeps comes from its input. */
  lemma TrimKeepsOut(s: string, c: char)
    requires c !in s
    ensures c !in Trim(s)
  {
    var r := Trim(s);
    TrimCuts(s);
    var i :| CutFrom(s, r, i);
  }

  /** Whitespace in front of a string that starts with a non-space is all `TrimStart` removes. */
  lemma {:induction false} TrimStartPad(w: string, s: string)
    requires AllSpace(w) && |s| > 0 && !IsSpace(s[0])
    ensures TrimStart(w + s) == s
    decreases |w|
  {
    if |w| == 0 {
      assert w + s == s;
    } else {
      assert (w + s)[0] == w[0];
      assert (w + s)[1..] == w[1..] + s;
      assert forall k :: 0 <= k < |w| - 1 ==> w[1..][k] == w[k + 1];
      TrimStartPad(w[1..], s);
    }
  }

  /** Whitespace after a string that ends with a non-space is all `TrimEnd` removes. */
  lemma {:induction false} TrimEndPad(s: string, w: string)
    requires AllSpace(w) && |s| > 0 && !IsSpace(s[|s| - 1])
    ensures TrimEnd(s + w) == s
    decreases |w|
  {
    if |w| == 0 {
      assert s + w == s;
    } else {
      var n := |s + w|;
      assert (s + w)[n - 1] == w[|w| - 1];
      assert (s + w)[..n - 1] == s + w[..|w| - 1];
      TrimEndPad(s, w[..|w| - 1]);
    }
  }

  /** Trimming a padded non-blank trimmed string gives it back, whatever the padding. */
  lemma TrimPadded(w1: string, s: string, w2: string)
    requires AllSpace(w1) && AllSpace(w2) && s != "" && Trimmed(s)
    ensures Trim(w1 + s + w2) == s
  {
    assert w1 + s + w2 == w1 + (s + w2);
    TrimStartPad(w1, s + w2);
    TrimEndPad(s, w2);
  }

  /** A string trims to nothing exactly when it is all whitespace. */
  lemma TrimBlank(s: string)
    ensures Trim(s) == "" <==> AllSpace(s)
  {
    var r := Trim(s);
    TrimCuts(s);
    var i :| CutFrom(s, r, i);
    if r == "" {
      assert forall k :: i <= k < |s| ==> s[k] == s[i..][k - i];
      assert forall k :: 0 <= k < i ==> s[k] == s[..i][k];
    }
  }

  // ---------------------------------------------------------------- splitting

  /** `parts.join(sep)`. */
  function Join(parts: seq<string>, sep: char): string {
    if |parts| == 0 then ""
    else if |parts| == 1 then parts[0]
    else parts[0] + [sep] + Join(parts[1..], sep)
  }

  /** `s.split(sep)` for a one-character separator. */
  function Split(s: string, sep: char): (parts: seq<string>)
    ensures |parts| >= 1
    ensures forall i :: 0 <= i < |parts| ==> sep !in parts[i]
    decreases |s|
  {
    if |s| == 0 then [""]
    else
      var rest := Split(s[1..], sep);
      if s[0] == sep then
        [""] + rest
      else
        [[s[0]] + rest[0]] + rest[1..]
  }

  /** Joining the parts of a split gives the text back. */
  lemma {:induction false} JoinSplit(s: string, sep: char)
    ensures Join(Split(s, sep), sep) == s
    decreases |s|
  {
    if |s| > 0 {
      var rest := Split(s[1..], sep);
      JoinSplit(s[1..], sep);
      if s[0] == sep {
        assert ([""] + rest)[1..] == rest;
      } else {
        var parts := [[s[0]] + rest[0]] + rest[1..];
        assert parts[1..] == rest[1..];
        assert |rest| > 1 ==> Join(rest, sep) == rest[0] + [sep] + Join(rest[1..], sep);
      }
    }
  }

  /** A string without the separator is a single field. */
  lemma {:induction false} SplitNoSep(s: string, sep: char)
    requires sep !in s
    ensures Split(s, sep) == [s]
    decreases |s|
  {
    if |s| > 0 {
      SplitNoSep(s[1..], sep);
      assert [s[0]] + s[1..] == s;
    }
  }

  /** Splitting at a separator concatenates the splits of both sides. */
  lemma {:induction false} SplitAppend(x: string, y: string, sep: char)
    ensures Split(x + [sep] + y, sep) == Split(x, sep) + Split(y, sep)
    decreases |x|
  {
    var s := x + [sep] + y;
    if |x| == 0 {
      assert s == [sep] + y;
      assert s[1..] == y;
    } else {
      assert s[0] == x[0];
      assert s[1..] == x[1..] + [sep] + y;
      SplitAppend(x[1..], y, sep);
    }
  }

  /** Splitting a join of separator-free fields gives the fields back. */
  lemma {:induction false} SplitJoin(parts: seq<string>, sep: char)
    requires |parts| >= 1
    requires forall i :: 0 <= i < |parts| ==> sep !in parts[i]
    ensures Split(Join(parts, sep), sep) == parts
  {
    if |parts| == 1 {
      SplitNoSep(parts[0], sep);
    } else {
      SplitJoin(parts[1..], sep);
      SplitNoSep(parts[0], sep);
      SplitAppend(parts[0], Join(parts[1..], sep), sep);
      assert parts == [parts[0]] + parts[1..];
    }
  }

  /** No field of a split holds a character the split text lacks. */
  lemma {:induction false} SplitKeepsOut(s: string, sep: char, c: char)
    requires c !in s
    ensures forall i :: 0 <= i < |Split(s, sep)| ==> c !in Split(s, sep)[i]
    decreases |s|
  {
    if |s| > 0 {
      SplitKeepsOut(s[1..], sep, c);
      assert forall k :: 0 <= k < |s| - 1 ==> s[1..][k] == s[k + 1];
    }
  }

  // ---------------------------------------------------------------- parsing

  /** A carriage return directly before a line feed belongs to the separator of `/\r?\n/`. */
  function StripCR(l: string): string {
    if |l| > 0 && l[|l| - 1] == '\r' then l[..|l| - 1] else l
  }

  /**
   * `text.split(/\r?\n/)`: the text cut at every line feed, a carriage return just
   * before a line feed going with it. There is one line per line feed and one more,
   * and no line holds a line feed; `LinesPieces` says what each line is.
   */
  function Lines(text: string): (ls: seq<string>)
    ensures |ls| == |Split(text, '\n')| >= 1
    ensures forall i :: 0 <= i < |ls| ==> '\n' !in ls[i]
  {
    var pieces := Split(text, '\n');
    var ls := StripCRs(pieces);
    StripCRParts(pieces, ls);
    ls
  }

  /** Every piece but the last, which no line feed ends, loses its carriage return. */
  function StripCRs(pieces: seq<string>): (ls: seq<string>)
    requires |pieces| >= 1
    ensures |ls| == |pieces| && ls[|ls| - 1] == pieces[|ls| - 1]
    ensures forall i :: 0 <= i < |ls| - 1 ==> ls[i] == StripCR(pieces[i])
  {
    seq(|pieces|, i requires 0 <= i < |pieces| => if i < |pieces| - 1 then StripCR(pieces[i]) else pieces[i])
  }

  /**
   * Each line is the piece of the text between two line feeds, less the one carriage
   * return just before the line feed that ends it; the last line is the last piece.
   */
  lemma LinesPieces(text: string)
    ensures var ls := Lines(text);
      && ls[|ls| - 1] == Split(text, '\n')[|ls| - 1]
      && forall i :: 0 <= i < |ls| - 1 ==>
           || Split(text, '\n')[i] == ls[i] + ['\r']
           || (Split(text, '\n')[i] == ls[i] && !EndsWithCR(ls[i]))
  {
    var pieces := Split(text, '\n');
    StripCRParts(pieces, Lines(text));
  }

  predicate EndsWithCR(l: string) {
    |l| > 0 && l[|l| - 1] == '\r'
  }

  /** Stripping one carriage return keeps a piece free of line feeds and gives the piece back with it. */
  lemma StripCRParts(pieces: seq<string>, ls: seq<string>)
    requires forall i :: 0 <= i < |pieces| ==> '\n' !in pieces[i]
    requires |ls| == |pieces|
    requires forall i :: 0 <= i < |ls| ==> ls[i] == if i < |pieces| - 1 then StripCR(pieces[i]) else pieces[i]
    ensures forall i :: 0 <= i < |ls| ==> '\n' !in ls[i]
    ensures forall i :: 0 <= i < |ls| - 1 ==>
              || pieces[i] == ls[i] + ['\r']
              || (pieces[i] == ls[i] && !EndsWithCR(ls[i]))
  {
    forall i | 0 <= i < |ls| - 1 && EndsWithCR(pieces[i])
      ensures pieces[i] == ls[i] + ['\r'] && '\n' !in ls[i]
    {
      var l := pieces[i];
      assert l == l[..|l| - 1] + ['\r'];
      assert forall k :: 0 <= k < |l| - 1 ==> l[..|l| - 1][k] == l[k];
    }
  }

  /** A line with something besides whitespace on it. */
  predicate HasContent(l: string) {
    !AllSpace(l)
  }

  /** `Boolean(s)` for a string. */
  predicate NonEmpty(s: string) {
    s != ""
  }

  /** Each line trimmed, in order. */
  function Trims(ls: seq<string>): (r: seq<string>)
    ensures |r| == |ls| && forall i :: 0 <= i < |ls| ==> r[i] == Trim(ls[i])
  {
    Map(ls, Trim)
  }

  /**
   * Every line trimmed, then the empty ones dropped: one trimmed, non-empty line per
   * line with content. `CleanLinesKeep` and `CleanLinesFrom` relate them to the lines.
   */
  function CleanLines(ls: seq<string>): (r: seq<string>)
    ensures |r| == Count(ls, HasContent) <= |ls|
    ensures forall i :: 0 <= i < |r| ==> r[i] != "" && Trimmed(r[i])
  {
    CleanLinesShape(ls);
    Filter(Trims(ls), NonEmpty)
  }

  /** Every line with content gives its trim to the clean-up. */
  lemma CleanLinesKeep(ls: seq<string>)
    ensures forall i :: 0 <= i < |ls| && HasContent(ls[i]) ==> Trim(ls[i]) in CleanLines(ls)
  {
    var trims := Trims(ls);
    TrimsContent(ls, trims);
    FilterKeeps(trims, NonEmpty);
  }

  /** Every line the clean-up gives is the trim of some line. */
  lemma CleanLinesFrom(ls: seq<string>)
    ensures forall k :: 0 <= k < |CleanLines(ls)| ==> exists i :: 0 <= i < |ls| && CleanLines(ls)[k] == Trim(ls[i])
  {
    var trims := Trims(ls);
    FilterFrom(trims, NonEmpty);
    TrimsFrom(ls, trims, Filter(trims, NonEmpty));
  }

  /** The count and shape `CleanLines` promises, from the promises of `Trim` and `Filter`. */
  lemma CleanLinesShape(ls: seq<string>)
    ensures var r := Filter(Trims(ls), NonEmpty);
      && |r| == Count(ls, HasContent)
      && (forall i :: 0 <= i < |r| ==> r[i] != "" && Trimmed(r[i]))
  {
    var trims := Trims(ls);
    var r := Filter(trims, NonEmpty);
    TrimsContent(ls, trims);
    CountPointwise(trims, ls, NonEmpty, HasContent);
    FilterFrom(trims, NonEmpty);
    TrimsFrom(ls, trims, r);
  }

  /** A line's trim is non-empty exactly when the line has content. */
  lemma TrimsContent(ls: seq<string>, trims: seq<string>)
    requires |trims| == |ls| && forall i :: 0 <= i < |ls| ==> trims[i] == Trim(ls[i])
    ensures forall i :: 0 <= i < |ls| ==> (NonEmpty(trims[i]) <==> HasContent(ls[i]))
  {
    forall i | 0 <= i < |ls|
      ensures NonEmpty(trims[i]) <==> HasContent(ls[i])
    {
      TrimBlank(ls[i]);
    }
  }

  /** Non-empty elements drawn from the trims are trimmed and are the trim of some line. */
  lemma TrimsFrom(ls: seq<string>, trims: seq<string>, r: seq<string>)
    requires |trims| == |ls| && forall i :: 0 <= i < |ls| ==> trims[i] == Trim(ls[i])
    requires forall k :: 0 <= k < |r| ==> r[k] in trims && NonEmpty(r[k])
    ensures forall k :: 0 <= k < |r| ==> r[k] != "" && Trimmed(r[k]) && exists i :: 0 <= i < |ls| && r[k] == Trim(ls[i])
  {
    forall k | 0 <= k < |r|
      ensures r[k] != "" && Trimmed(r[k]) && exists i :: 0 <= i < |ls| && r[k] == Trim(ls[i])
    {
      var j :| 0 <= j < |trims| && trims[j] == r[k];
    }
  }

  /** Cleaning up lines distributes over concatenation, so the order of the lines is kept. */
  lemma CleanLinesAppend(a: seq<string>, b: seq<string>)
    ensures CleanLines(a + b) == CleanLines(a) + CleanLines(b)
  {
    MapAppend(a, b, Trim);
    FilterAppend(Trims(a), Trims(b), NonEmpty);
  }

  /** Blank lines, and lines of whitespace, are dropped. */
  lemma BlankLinesDropped(ls: seq<string>)
    requires forall i :: 0 <= i < |ls| ==> AllSpace(ls[i])
    ensures CleanLines(ls) == []
  {
  }

  /** A pair `parseCSV` can produce: both words non-empty, trimmed, free of commas and line feeds. */
  predicate ValidPair(p: VocabPair) {
    && p.en != "" && p.zh != ""
    && Trimmed(p.en) && Trimmed(p.zh)
    && ',' !in p.en && ',' !in p.zh
    && '\n' !in p.en && '\n' !in p.zh
  }

  /**
   * One line of the loop body: the line is cut at its commas, the first two fields are
   * trimmed, and the pair is kept only when both are non-empty; a line with one field
   * has no second word.
   */
  function ParseLine(line: string): (o: Option<VocabPair>)
    ensures o.Some? && '\n' !in line ==> ValidPair(o.value)
    ensures o.Some? <==>
      |Split(line, ',')| >= 2 && Trim(Split(line, ',')[0]) != "" && Trim(Split(line, ',')[1]) != ""
    ensures o.Some? ==> o.value == VocabPair(Trim(Split(line, ',')[0]), Trim(Split(line, ',')[1]))
  {
    var fields := Split(line, ',');
    var en := Trim(fields[0]);
    var zh := if |fields| >= 2 then Trim(fields[1]) else "";
    FieldsAvoid(line);
    if en != "" && zh != "" then Some(VocabPair(en, zh)) else None
  }

  /** Trimmed fields hold no comma, and no line feed when the line has none. */
  lemma FieldsAvoid(line: string)
    ensures forall i :: 0 <= i < |Split(line, ',')| ==> ',' !in Trim(Split(line, ',')[i])
    ensures '\n' !in line ==> forall i :: 0 <= i < |Split(line, ',')| ==> '\n' !in Trim(Split(line, ',')[i])
  {
    var fields := Split(line, ',');
    forall i | 0 <= i < |fields|
      ensures ',' !in Trim(fields[i])
    {
      TrimKeepsOut(fields[i], ',');
    }
    if '\n' !in line {
      SplitKeepsOut(line, ',', '\n');
      forall i | 0 <= i < |fields|
        ensures '\n' !in Trim(fields[i])
      {
        TrimKeepsOut(fields[i], '\n');
      }
    }
  }

  /** A comma-free string is never cut by a split at commas, and whitespace holds no comma. */
  lemma SpaceHasNoComma(w: string)
    requires AllSpace(w)
    ensures ',' !in w
  {
  }

  /**
   * A line holding a valid pair parses to it, whatever whitespace pads either word and
   * whatever further fields follow.
   */
  lemma ParsePaddedLine(p: VocabPair, w1: string, w2: string, w3: string, w4: string, tail: string)
    requires ValidPair(p)
    requires AllSpace(w1) && AllSpace(w2) && AllSpace(w3) && AllSpace(w4)
    requires tail == [] || tail[0] == ','
    ensures ParseLine(w1 + p.en + w2 + [','] + w3 + p.zh + w4 + tail) == Some(p)
  {
    var x := w1 + p.en + w2;
    var y := w3 + p.zh + w4;
    var line := w1 + p.en + w2 + [','] + w3 + p.zh + w4 + tail;
    assert line == x + [','] + (y + tail);
    SpaceHasNoComma(w1);
    SpaceHasNoComma(w2);
    SpaceHasNoComma(w3);
    SpaceHasNoComma(w4);
    FirstTwoFields(x, y, tail);
    TrimPadded(w1, p.en, w2);
    TrimPadded(w3, p.zh, w4);
    ParseFirstTwo(line, x, y);
  }

  /** Two comma-free fields, then nothing or a comma and more, split into those two fields first. */
  lemma FirstTwoFields(x: string, y: string, tail: string)
    requires ',' !in x && ',' !in y
    requires tail == [] || tail[0] == ','
    ensures var fields := Split(x + [','] + (y + tail), ',');
      |fields| >= 2 && fields[0] == x && fields[1] == y
  {
    SplitAppend(x, y + tail, ',');
    SplitNoSep(x, ',');
    if tail == [] {
      assert y + tail == y;
      SplitNoSep(y, ',');
    } else {
      assert y + tail == y + [','] + tail[1..];
      SplitAppend(y, tail[1..], ',');
      SplitNoSep(y, ',');
    }
  }

  /** A line whose first two fields trim to non-empty words parses to those words. */
  lemma ParseFirstTwo(line: string, x: string, y: string)
    requires |Split(line, ',')| >= 2 && Split(line, ',')[0] == x && Split(line, ',')[1] == y
    requires Trim(x) != "" && Trim(y) != ""
    ensures ParseLine(line) == Some(VocabPair(Trim(x), Trim(y)))
  {
  }

  /** The loop over the lines in `parseCSV`: the pairs of the lines that have one. */
  function ParseLines(lines: seq<string>): (out: seq<VocabPair>)
    ensures |out| <= |lines|
    ensures (forall i :: 0 <= i < |lines| ==> '\n' !in lines[i]) ==>
              forall k :: 0 <= k < |out| ==> ValidPair(out[k])
    ensures forall i :: 0 <= i < |lines| && ParseLine(lines[i]).Some? ==> ParseLine(lines[i]).value in out
  {
    var out := FilterMap(lines, ParseLine);
    FilterMapFrom(lines, ParseLine);
    out
  }

  /** Every pair the loop gives is the pair of some line. */
  lemma ParseLinesFrom(lines: seq<string>)
    ensures forall k :: 0 <= k < |ParseLines(lines)| ==> exists i :: 0 <= i < |lines| && ParseLine(lines[i]) == Some(ParseLines(lines)[k])
  {
    var out := ParseLines(lines);
    var f := ParseLine;
    FilterMapFrom(lines, f);
    forall k | 0 <= k < |out|
      ensures exists i :: 0 <= i < |lines| && ParseLine(lines[i]) == Some(out[k])
    {
      var i :| 0 <= i < |lines| && f(lines[i]) == Some(out[k]);
      assert ParseLine(lines[i]) == f(lines[i]);
    }
  }

  /** The loop distributes over concatenation, so the pairs come out in the order of their lines. */
  lemma ParseLinesAppend(a: seq<string>, b: seq<string>)
    ensures ParseLines(a + b) == ParseLines(a) + ParseLines(b)
  {
    FilterMapAppend(a, b, ParseLine);
  }

  /** `parseCSV(text)`. */
  function ParseCSV(text: string): (out: seq<VocabPair>)
    ensures |out| <= |CleanLines(Lines(text))|
    ensures forall k :: 0 <= k < |out| ==> ValidPair(out[k])
  {
    ParsedValid(Lines(text));
    ParseLines(CleanLines(Lines(text)))
  }

  /** Lines free of line feeds clean up and parse to valid pairs only. */
  lemma ParsedValid(ls: seq<string>)
    requires forall i :: 0 <= i < |ls| ==> '\n' !in ls[i]
    ensures forall k :: 0 <= k < |ParseLines(CleanLines(ls))| ==> ValidPair(ParseLines(CleanLines(ls))[k])
  {
    CleanLinesKeepOut(ls, '\n');
  }

  /** A character no line holds is in no cleaned line. */
  lemma CleanLinesKeepOut(ls: seq<string>, c: char)
    requires forall i :: 0 <= i < |ls| ==> c !in ls[i]
    ensures forall i :: 0 <= i < |CleanLines(ls)| ==> c !in CleanLines(ls)[i]
  {
    var trims := Trims(ls);
    forall i | 0 <= i < |trims|
      ensures c !in trims[i]
    {
      TrimKeepsOut(ls[i], c);
    }
    FilterKeepsOut(trims, NonEmpty, c);
  }

  /** Filtering strings that lack `c` leaves strings that lack `c`. */
  lemma FilterKeepsOut(ss: seq<string>, p: string -> bool, c: char)
    requires forall i :: 0 <= i < |ss| ==> c !in ss[i]
    ensures forall k :: 0 <= k < |Filter(ss, p)| ==> c !in Filter(ss, p)[k]
  {
    var r := Filter(ss, p);
    FilterFrom(ss, p);
    forall k | 0 <= k < |r|
      ensures c !in r[k]
    {
      var j :| 0 <= j < |ss| && ss[j] == r[k];
    }
  }

  /** Fields after the second are ignored. */
  lemma ExtraFieldsIgnored(line: string, extra: string)
    requires |Split(line, ',')| >= 2
    ensures ParseLine(line + [','] + extra) == ParseLine(line)
  {
    SplitAppend(line, extra, ',');
  }

  // ---------------------------------------------------------------- rendering

  /** The CSV line of one pair. */
  function RenderPair(p: VocabPair): string {
    p.en + [','] + p.zh
  }

  /** The CSV line of each pair, in order. */
  function RenderLines(ps: seq<VocabPair>): (ls: seq<string>)
    ensures |ls| == |ps| && forall i :: 0 <= i < |ps| ==> ls[i] == RenderPair(ps[i])
  {
    if |ps| == 0 then []
    else
      var rest := RenderLines(ps[1..]);
      assert forall i :: 1 <= i < |ps| ==> ps[i] == ps[1..][i - 1];
      [RenderPair(ps[0])] + rest
  }

  /** A CSV text with one line per pair. */
  function Render(ps: seq<VocabPair>): string {
    Join(RenderLines(ps), '\n')
  }

  /** Parsing the line of a valid pair gives the pair back. */
  lemma ParseRenderedLine(p: VocabPair)
    requires ValidPair(p)
    ensures ParseLine(RenderPair(p)) == Some(p)
  {
    SplitAppend(p.en, p.zh, ',');
    SplitNoSep(p.en, ',');
    SplitNoSep(p.zh, ',');
    assert Split(RenderPair(p), ',') == [p.en] + [p.zh] == [p.en, p.zh];
    ParseTwoFields(RenderPair(p), p.en, p.zh);
  }

  /** A line of exactly two clean fields parses to them. */
  lemma ParseTwoFields(line: string, en: string, zh: string)
    requires Split(line, ',') == [en, zh]
    requires en != "" && zh != "" && Trimmed(en) && Trimmed(zh)
    ensures ParseLine(line) == Some(VocabPair(en, zh))
  {
  }

  /** The line of a valid pair is not blank and has no whitespace at either end. */
  lemma RenderedLineClean(p: VocabPair)
    requires ValidPair(p)
    ensures RenderPair(p) != "" && Trimmed(RenderPair(p))
  {
    var l := RenderPair(p);
    assert l[0] == p.en[0] && l[|l| - 1] == p.zh[|p.zh| - 1];
  }

  /** Lines that are already clean pass the clean-up unchanged. */
  lemma CleanLinesOfClean(ls: seq<string>)
    requires forall i :: 0 <= i < |ls| ==> ls[i] != "" && Trimmed(ls[i])
    ensures CleanLines(ls) == ls
  {
    assert Trims(ls) == ls;
    FilterAll(ls, NonEmpty);
  }

  lemma ParseRenderedLines(ps: seq<VocabPair>)
    requires forall k :: 0 <= k < |ps| ==> ValidPair(ps[k])
    ensures ParseLines(RenderLines(ps)) == ps
  {
    var ls := RenderLines(ps);
    forall i | 0 <= i < |ps|
      ensures ParseLine(ls[i]) == Some(ps[i])
    {
      ParseRenderedLine(ps[i]);
    }
    FilterMapAll(ls, ParseLine, ps);
  }

  /** Parsing the CSV text of valid pairs gives the pairs back. */
  lemma ParseRender(ps: seq<VocabPair>)
    requires forall k :: 0 <= k < |ps| ==> ValidPair(ps[k])
    ensures ParseCSV(Render(ps)) == ps
  {
    var ls := RenderLines(ps);
    if |ps| == 0 {
      assert Render(ps) == "";
      assert Lines("") == [""];
    } else {
      RenderedLinesClean(ps);
      LinesOfJoin(ls);
      CleanLinesOfClean(ls);
      ParseRenderedLines(ps);
      ParseOfLines(Render(ps), ls, ls);
    }
  }

  /** The CSV lines of valid pairs are clean: non-empty, trimmed, free of line feeds. */
  lemma RenderedLinesClean(ps: seq<VocabPair>)
    requires forall k :: 0 <= k < |ps| ==> ValidPair(ps[k])
    ensures forall i :: 0 <= i < |ps| ==> '\n' !in RenderLines(ps)[i] && RenderLines(ps)[i] != "" && Trimmed(RenderLines(ps)[i])
  {
    forall i | 0 <= i < |ps|
      ensures '\n' !in RenderLines(ps)[i] && RenderLines(ps)[i] != "" && Trimmed(RenderLines(ps)[i])
    {
      RenderedLineClean(ps[i]);
    }
  }

  /** A text whose lines clean up to `cl` parses as `cl` does. */
  lemma ParseOfLines(text: string, ls: seq<string>, cl: seq<string>)
    requires Lines(text) == ls && CleanLines(ls) == cl
    ensures ParseCSV(text) == ParseLines(cl)
  {
  }

  /** Clean lines joined by line feeds split back into themselves. */
  lemma LinesOfJoin(ls: seq<string>)
    requires |ls| >= 1
    requires forall i :: 0 <= i < |ls| ==> '\n' !in ls[i] && ls[i] != "" && Trimmed(ls[i])
    ensures Lines(Join(ls, '\n')) == ls
  {
    SplitJoin(ls, '\n');
    forall i | 0 <= i < |ls|
      ensures !EndsWithCR(ls[i])
    {
      assert IsSpace('\r');
    }
    LinesOfPieces(Join(ls, '\n'), ls);
  }

  /** A text whose pieces do not end in a carriage return has those pieces as its lines. */
  lemma LinesOfPieces(text: string, pieces: seq<string>)
    requires Split(text, '\n') == pieces
    requires forall i :: 0 <= i < |pieces| ==> !EndsWithCR(pieces[i])
    ensures Lines(text) == pieces
  {
    StripCRsKeep(pieces);
  }

  /** Pieces that do not end in a carriage return lose nothing. */
  lemma StripCRsKeep(pieces: seq<string>)
    requires |pieces| >= 1 && forall i :: 0 <= i < |pieces| ==> !EndsWithCR(pieces[i])
    ensures StripCRs(pieces) == pieces
  {
    var ls := StripCRs(pieces);
    assert forall i :: 0 <= i < |ls| ==> ls[i] == pieces[i];
  }

  /** Lines each ended by a carriage return and a line feed, as Windows editors save text. */
  function CrlfText(ls: seq<string>): string {
    if |ls| == 0 then "" else ls[0] + ['\r', '\n'] + CrlfText(ls[1..])
  }

  /** Cutting CRLF-ended lines at the line feeds leaves each line with its carriage return, and an empty last piece. */
  lemma {:induction false} SplitCrlf(ls: seq<string>)
    requires forall i :: 0 <= i < |ls| ==> '\n' !in ls[i]
    ensures Split(CrlfText(ls), '\n') == seq(|ls|, i requires 0 <= i < |ls| => ls[i] + ['\r']) + [""]
  {
    if |ls| > 0 {
      var head := ls[0] + ['\r'];
      assert CrlfText(ls) == head + ['\n'] + CrlfText(ls[1..]);
      SplitAppend(head, CrlfText(ls[1..]), '\n');
      SplitNoSep(head, '\n');
      assert forall i :: 1 <= i < |ls| ==> ls[1..][i - 1] == ls[i];
      SplitCrlf(ls[1..]);
    }
  }

  /** The lines of a CRLF text are the lines as they were, then one empty line after the last line feed. */
  lemma LinesOfCrlf(ls: seq<string>)
    requires forall i :: 0 <= i < |ls| ==> '\n' !in ls[i]
    ensures Lines(CrlfText(ls)) == ls + [""]
  {
    var pieces := Split(CrlfText(ls), '\n');
    SplitCrlf(ls);
    LinesPieces(CrlfText(ls));
    StripPieces(ls, pieces, Lines(CrlfText(ls)));
  }

  /** Pieces that each end in the one carriage return `Lines` strips give the lines back. */
  lemma StripPieces(ls: seq<string>, pieces: seq<string>, out: seq<string>)
    requires pieces == seq(|ls|, i requires 0 <= i < |ls| => ls[i] + ['\r']) + [""]
    requires |out| == |pieces| && out[|ls|] == pieces[|ls|]
    requires forall i :: 0 <= i < |out| - 1 ==>
               || pieces[i] == out[i] + ['\r']
               || (pieces[i] == out[i] && !EndsWithCR(out[i]))
    ensures out == ls + [""]
  {
    forall i | 0 <= i < |ls|
      ensures out[i] == ls[i]
    {
      var l := ls[i] + ['\r'];
      assert pieces[i] == l && EndsWithCR(l);
      assert out[i] == l[..|l| - 1];
      assert l[..|l| - 1] == ls[i];
    }
  }

  /** A CRLF file of valid pairs, with its trailing line break, parses to those pairs. */
  lemma ParseCrlf(ps: seq<VocabPair>)
    requires forall k :: 0 <= k < |ps| ==> ValidPair(ps[k])
    ensures ParseCSV(CrlfText(RenderLines(ps))) == ps
  {
    RenderedLinesClean(ps);
    CrlfParsesAsLines(RenderLines(ps));
    ParseRenderedLines(ps);
  }

  /** A CRLF text of clean lines parses as those lines do. */
  lemma CrlfParsesAsLines(ls: seq<string>)
    requires forall i :: 0 <= i < |ls| ==> '\n' !in ls[i] && ls[i] != "" && Trimmed(ls[i])
    ensures ParseCSV(CrlfText(ls)) == ParseLines(ls)
  {
    LinesOfCrlf(ls);
    CleanWithBlank(ls);
    ParseOfLines(CrlfText(ls), ls + [""], ls);
  }

  /** Clean lines followed by one empty line clean up to the lines alone. */
  lemma CleanWithBlank(ls: seq<string>)
    requires forall i :: 0 <= i < |ls| ==> ls[i] != "" && Trimmed(ls[i])
    ensures CleanLines(ls + [""]) == ls
  {
    MapAppend(ls, [""], Trim);
    TrimsClean(ls);
    assert Trims([""]) == [""];
    FilterAppend(ls, [""], NonEmpty);
    FilterAll(ls, NonEmpty);
    assert Filter([""], NonEmpty) == [];
  }

  /** Trimming clean lines changes none of them. */
  lemma TrimsClean(ls: seq<string>)
    requires forall i :: 0 <= i < |ls| ==> Trimmed(ls[i])
    ensures Trims(ls) == ls
  {
  }

  /** Parsing is a normal form: rendering its output and parsing again changes nothing. */
  lemma ParseIsNormalForm(text: string)
    ensures ParseCSV(Render(ParseCSV(text))) == ParseCSV(text)
  {
    ParseRender(ParseCSV(text));
  }
}

=== FILE: waves.dfy ===
/**
 * `spawnAsteroidsForLevel`: a wave of asteroids for one level, exactly one of which
 * carries the translation of the prompt word. The random draws the source makes are
 * passed in (`WaveDraws`).
 */
module Waves {
  import opened Wrappers
  import opened Seqs
  import opened Utilities
  import opened Vocabulary
  import opened Entities

  datatype Side = Top | Bottom | Left | Right

  /** `['top', 'bottom', 'left', 'right']`, the list `choose` picks a spawn edge from. */
  const Sides: seq<Side> := [Top, Bottom, Left, Right]

  /**
   * The draws made for one asteroid slot, in the order the loop body makes them: the
   * decoy word, the edge, the place along the edge and the base size. The velocity
   * (heading toward the ship plus jitter, times a random speed), the initial angle and
   * the spin are trigonometry and floating point, supplied as they come out.
   */
  datatype SlotDraw = SlotDraw(
    decoy: Rand, side: Rand, along: Rand, size: Rand,
    vx: int, vy: int, angle: int, rot: int)

  /** The draws of one wave: the prompt, the correct slot, and one `SlotDraw` per slot. */
  datatype WaveDraws = WaveDraws(target: Rand, correct: Rand, slots: nat -> SlotDraw)

  datatype Wave = Wave(target: VocabPair, asteroids: seq<Asteroid>)

  /** `baseCount + (level - 1) * growth` over the reals. */
  function Growth(level: int): real {
    5.0 + ((level - 1) as real) * 1.5
  }

  /** How many asteroids a wave has: 5, plus 1.5 per level above the first, rounded, and at least 3. */
  function WaveCount(level: int): (n: nat)
    ensures n >= 3
    ensures n > 3 ==> (n as real) - 0.5 <= Growth(level) < (n as real) + 0.5
    ensures n == 3 ==> Growth(level) < 3.5
  {
    var m := (3 * level + 8) / 2;
    assert 2 * m <= 3 * level + 8 < 2 * m + 2;
    if m > 3 then m else 3
  }

  /** Later levels never have fewer asteroids. */
  lemma WaveCountMonotone(l1: int, l2: int)
    requires l1 <= l2
    ensures WaveCount(l1) <= WaveCount(l2)
  {
  }

  lemma WaveCountExamples()
    ensures WaveCount(1) == 5 && WaveCount(2) == 7 && WaveCount(3) == 8 && WaveCount(-5) == 3
  {
  }

  /** The spawn point just outside the chosen edge, `spawnPadding` away from the field. */
  function SpawnPoint(side: Side, along: Rand): (p: (int, int))
    ensures p.0 < 0 || p.0 >= Width || p.1 < 0 || p.1 >= Height
    ensures side == Top ==> p.1 == -SpawnPadding && 0 <= p.0 < Width
    ensures side == Bottom ==> p.1 == Height + SpawnPadding && 0 <= p.0 < Width
    ensures side == Left ==> p.0 == -SpawnPadding && 0 <= p.1 < Height
    ensures side == Right ==> p.0 == Width + SpawnPadding && 0 <= p.1 < Height
  {
    match side
    case Top => (RandRange(0, Width, along), -SpawnPadding)
    case Bottom => (RandRange(0, Width, along), Height + SpawnPadding)
    case Left => (-SpawnPadding, RandRange(0, Height, along))
    case Right => (Width + SpawnPadding, RandRange(0, Height, along))
  }

  /**
   * A size drawn between the minimum and the maximum, scaled by 1 + level * 0.05 and rounded down once. In twentieths
   * the product is `minSize * (20 + level)` plus the drawn share of
   * `(maxSize - minSize) * (20 + level)`; the first term is whole, so truncating the
   * drawn share to whole twentieths and then dividing by 20 is the floor of the
   * product itself.
   */
  function AsteroidSize(level: Level, r: Rand): (size: nat)
    ensures MinSize <= size
    ensures 20 * size < MaxSize * (20 + level)
    ensures MinSize * (20 + level) < 20 * size + 20
    ensures 20 * RandScale * size <= (MinSize * RandScale + r * (MaxSize - MinSize)) * (20 + level) < 20 * RandScale * (size + 1)
  {
    var scale: nat := 20 + level;
    var share := PickIndex(r, (MaxSize - MinSize) * scale);
    var size := (MinSize * scale + share) / 20;
    SizeIsFloor(scale, r, share, size);
    size
  }

  /**
   * With `share` the drawn share of `(maxSize - minSize) * scale` and `size` the
   * twentieths rounded down, `size` is the floor of the real product over 20.
   */
  lemma SizeIsFloor(scale: nat, r: Rand, share: nat, size: nat)
    requires share * RandScale <= r * ((MaxSize - MinSize) * scale) < (share + 1) * RandScale
    requires 20 * size <= MinSize * scale + share < 20 * size + 20
    ensures 20 * RandScale * size <= (MinSize * RandScale + r * (MaxSize - MinSize)) * scale < 20 * RandScale * (size + 1)
  {
    var u := RandScale;
    assert (MinSize * u + r * (MaxSize - MinSize)) * scale == MinSize * scale * u + r * ((MaxSize - MinSize) * scale);
    MulMonotone(20 * size, MinSize * scale + share, u);
    MulMonotone(MinSize * scale + share + 1, 20 * size + 20, u);
  }

  /**
   * Every whole size from the rounded-down scaled minimum up to below the scaled
   * maximum is the size of some draw: no size in the range is unreachable. This needs
   * the range, in twentieths, to be no wider than the number of modelled draws, which
   * holds for every level below 2^53 / 24 - 20.
   */
  lemma EverySizeReachable(level: Level, n: nat)
    requires (MaxSize - MinSize) * (20 + level) <= RandScale
    requires MinSize * (20 + level) < 20 * n + 20 && 20 * n < MaxSize * (20 + level)
    ensures exists r: Rand :: AsteroidSize(level, r) == n
  {
    var scale: nat := 20 + level;
    var len := (MaxSize - MinSize) * scale;
    var share := if 20 * n >= MinSize * scale then 20 * n - MinSize * scale else 0;
    assert share < len;
    EverySlotReachable(len, share);
    var r: Rand :| PickIndex(r, len) == share;
    assert AsteroidSize(level, r) == (MinSize * scale + share) / 20;
  }

  /** At level 1 sizes run from 18 to 44, 20, 41 and 44 among them. */
  lemma LevelOneSizes()
    ensures exists r: Rand :: AsteroidSize(1, r) == 20
    ensures exists r: Rand :: AsteroidSize(1, r) == 41
    ensures exists r: Rand :: AsteroidSize(1, r) == 44
    ensures forall r: Rand :: 18 <= AsteroidSize(1, r) <= 44
  {
    EverySizeReachable(1, 20);
    EverySizeReachable(1, 41);
    EverySizeReachable(1, 44);
  }

  /** The word `vocab` translates some English word to. */
  predicate Translates(vocab: seq<VocabPair>, text: string) {
    exists i :: 0 <= i < |vocab| && vocab[i].zh == text
  }

  /** One pass of the loop body: the asteroid of slot `i`. */
  function SpawnSlot(level: Level, vocab: Vocab, target: VocabPair, isCorrect: bool, d: SlotDraw): (a: Asteroid)
    ensures a.alive && a.isCorrect == isCorrect && a.size >= MinSize
    ensures isCorrect ==> a.text == target.zh
    ensures !isCorrect ==> Translates(vocab, a.text)
    ensures a.x < 0 || a.x >= Width || a.y < 0 || a.y >= Height
  {
    var decoy := Choose(vocab, d.decoy).value;
    var text := if isCorrect then target.zh else decoy.zh;
    var side := Choose(Sides, d.side).value;
    var p := SpawnPoint(side, d.along);
    Asteroid(p.0, p.1, d.vx, d.vy, d.angle, d.rot, AsteroidSize(level, d.size), text, isCorrect, true)
  }

  /** The correct slot: a random slot index of the wave. */
  function CorrectSlot(level: Level, d: WaveDraws): (k: nat)
    ensures k < WaveCount(level)
  {
    PickIndex(d.correct, WaveCount(level))
  }

  /** The loop over the wave's slots: slot `c` correct, every other slot a decoy. */
  function Slots(level: Level, vocab: Vocab, target: VocabPair, c: nat, draws: nat -> SlotDraw, n: nat): (s: seq<Asteroid>)
    requires Translates(vocab, target.zh)
    ensures |s| == n
    ensures forall i :: 0 <= i < n ==> s[i].alive && s[i].size >= MinSize
    ensures forall i :: 0 <= i < n ==> (s[i].isCorrect <==> i == c)
    ensures forall i :: 0 <= i < n ==> s[i].isCorrect ==> s[i].text == target.zh
    ensures forall i :: 0 <= i < n ==> Translates(vocab, s[i].text)
  {
    var s := seq(n, i requires 0 <= i < n => SpawnSlot(level, vocab, target, i == c, draws(i)));
    assert forall i :: 0 <= i < n ==> s[i] == SpawnSlot(level, vocab, target, i == c, draws(i));
    s
  }

  /**
   * `spawnAsteroidsForLevel(level)`: the prompt is drawn from the vocabulary, and the
   * wave holds `WaveCount(level)` fresh asteroids of which exactly one, the
   * `CorrectSlot`, is correct and shows the prompt's translation. Decoys show words
   * drawn with replacement, so a decoy may show the same word without being correct.
   */
  function GenerateWave(level: Level, vocab: Vocab, d: WaveDraws): (w: Wave)
    ensures w.target in vocab
    ensures |w.asteroids| == WaveCount(level)
    ensures Count(w.asteroids, IsCorrect) == 1
    ensures w.asteroids[CorrectSlot(level, d)].isCorrect
    ensures forall i :: 0 <= i < |w.asteroids| ==> w.asteroids[i].alive
    ensures forall i :: 0 <= i < |w.asteroids| ==> w.asteroids[i].isCorrect ==> w.asteroids[i].text == w.target.zh
    ensures forall i :: 0 <= i < |w.asteroids| ==> Translates(vocab, w.asteroids[i].text)
  {
    var target := Choose(vocab, d.target).value;
    var c := CorrectSlot(level, d);
    assert Translates(vocab, target.zh) by {
      var j :| 0 <= j < |vocab| && vocab[j] == target;
    }
    var asteroids := Slots(level, vocab, target, c, d.slots, WaveCount(level));
    CountOne(asteroids, IsCorrect, c);
    Wave(target, asteroids)
  }

  /**
   * The shape a wave keeps from frame to frame: there is a prompt, every asteroid in
   * play is alive, and exactly one of them is correct and shows the prompt's translation.
   */
  predicate WaveIntact(g: Game) {
    && g.target.Some?
    && Count(g.asteroids, IsCorrect) == 1
    && (forall i :: 0 <= i < |g.asteroids| ==> g.asteroids[i].alive)
    && (forall i :: 0 <= i < |g.asteroids| ==> g.asteroids[i].isCorrect ==> g.asteroids[i].text == g.target.value.zh)
  }

  /**
   * `spawnAsteroidsForLevel(level)` on the state: the asteroids and the prompt are
   * replaced by a fresh wave for the current level and vocabulary; nothing else changes.
   */
  function Spawn(g: Game, d: WaveDraws): (r: Game)
    ensures WaveIntact(r)
    ensures r.target.Some? && r.target.value in g.vocab
    ensures forall i :: 0 <= i < |r.asteroids| ==> Translates(g.vocab, r.asteroids[i].text)
    ensures |r.asteroids| == WaveCount(g.level)
    ensures r == g.(asteroids := r.asteroids, target := r.target)
  {
    var w := GenerateWave(g.level, g.vocab, d);
    g.(asteroids := w.asteroids, target := Some(w.target))
  }

  /**
   * With a one-word vocabulary every asteroid shows the prompt's translation, and
   * still exactly one of them counts as correct.
   */
  lemma SingleWordWave(level: Level, vocab: Vocab, d: WaveDraws)
    requires |vocab| == 1
    ensures var w := GenerateWave(level, vocab, d);
      && (forall i :: 0 <= i < |w.asteroids| ==> w.asteroids[i].text == w.target.zh)
      && Count(w.asteroids, IsCorrect) == 1
      && |w.asteroids| > 1
  {
    var w := GenerateWave(level, vocab, d);
    forall i | 0 <= i < |w.asteroids|
      ensures w.asteroids[i].text == w.target.zh
    {
      assert Translates(vocab, w.asteroids[i].text);
    }
  }
}

=== FILE: wrappers.dfy ===
/** The optional value of the game: JavaScript's `undefined`/`null` become `None`. */
module Wrappers {

  datatype Option<+T> = None | Some(value: T)

}
